=== FILE: README.md ===
# Enron prefix search — a Dafny model of the trie index

`enron_search.py` indexes a mail corpus for prefix queries. Each token of each
document goes into a character trie together with the document's index
(`Trie.insert`). The trie is then written out as two integer arrays
(`Trie.serialize`):

- a **node file** with one 32-integer record per trie node, laid out
  breadth-first. Slots 0..25 hold the byte offset of each letter's child
  record, or 0 when there is no child. Slot 26 is the end-of-word flag and
  slot 27 the leaf flag. Slots 28 and 29 hold the byte offset and the length
  of the node's posting run. Slots 30 and 31 are reserved.
- a **posting file** made of the concatenated id lists of the end-of-word
  nodes.

`PrefixSearcher.search` walks the prefix down the node file with seeks. It
then runs a depth-first walk (`_dfs`) from the record it reached. The walk
reports every complete word below that record with the file names of its
documents.

This project models those three parts as pure functions and short methods
over Dafny sequences and proves the round trip. Serializing a trie and
searching the two arrays for a prefix `p` yields exactly the trie words that
start with `p`. Each word comes with its ids in insertion order, and the words
come in dictionary order.

Modules, in dependency order:

| file | module | contents |
|---|---|---|
| wrappers.dfy | `Wrappers` | `Option` |
| alphabet.dfy | `Alphabet` | `charToInt`/`intToChar`, prefixes, dictionary order |
| trie.dfy | `Trie`, `TrieInsert` | `TrieNode` as an immutable `Node`, `insert`, growth facts |
| ingest.dfy | `Ingest` | the trie built from a stream of (token, document) pairs |
| enumeration.dfy | `Enumeration` | what a prefix query means on the in-memory trie |
| layout.dfy | `Layout` | the record format and what "record k encodes node n" means |
| serializer.dfy | `Serializer` | the breadth-first `serialize` loop |
| searcher.dfy | `Searcher` | the prefix walk, `_dfs`, the result dictionary |
| roundtrip.dfy | `RoundTrip` | search over the files agrees with the trie |

The model makes these choices:

- Files are `seq<int>` with the item size fixed at 4. A seek to byte offset
  `o` followed by a 32-integer read is record `o / 128`.
- A node's children dictionary is a `map<char, Node>` together with the key
  insertion order (`order`). Python dictionaries iterate in insertion order,
  and that order decides where each child record goes.
- The lookup `self.email_files[id].strip()` is a function parameter `nameOf`.
- The result dictionary is a list of (word, names) pairs in key insertion
  order (`Searcher.Dict`). `Get` and `Put` give it Python's semantics.

## Model

| member | source | states |
|---|---|---|
| Alphabet.CharToInt | enron_search.py:48-49 | the slot number of a character is in 0..25 exactly when the character is a lower-case ASCII letter |
| Alphabet.IntToChar | enron_search.py:50-51 | every slot number 0..25 names a letter, and `charToInt` maps that letter back to the slot |
| Alphabet.LetterRoundTrip | enron_search.py:48-51 | every letter survives `charToInt` followed by `intToChar` |
| Trie.Insert | enron_search.py:57-64 | after `insert(word, id)` the word is complete, its id list is the old list with `id` appended, and a trie of letter words stays well shaped (letter keys, each key listed once in insertion order, ids only on word ends) |
| TrieInsert.NewNodeEmpty | enron_search.py:39-46 | a fresh trie holds no word and no ids |
| TrieInsert.InsertKeepsOthers | enron_search.py:57-64 | an insert leaves the end-of-word flag and the id list of every other string unchanged |
| TrieInsert.InsertPaths | enron_search.py:57-62 | after an insert a path exists exactly when it existed before or is a prefix of the word: the insert creates the missing nodes of the word's path and no other node |
| TrieInsert.InsertExtends | enron_search.py:59-63 | an insert only grows the trie: no child is removed, no word flag is cleared, and each node's key order only gains keys at its end |
| TrieInsert.ExtendsKeepsWords | enron_search.py:59-63 | a grown trie keeps every path and every complete word of the original |
| TrieInsert.InsertKeepsWords | enron_search.py:57-64 | every word present before an insert is still a word after it |
| Ingest.Build | enron_search.py:180-201 | inserting a stream of letter tokens from an empty trie yields a well-shaped trie |
| Ingest.BuildEntries | enron_search.py:180-201 | after the stream, a string is a word exactly when some pair carries it, and its id list is the ids paired with it, in stream order |
| Ingest.IdsForMembers | enron_search.py:191-201 | an id is in a word's list exactly when the stream holds that (word, id) pair |
| Ingest.NoDuplicatePostings | enron_search.py:191-201 | a stream that adds each word at most once per document gives posting lists without repeated ids |
| Ingest.PostingsIncrease | enron_search.py:183-201 | documents are read in index order and each word is added at most once per document, so every posting list is strictly increasing |
| Enumeration.Words | enron_search.py:132-156 | each word reported below a node extends the node's path, and no word is reported twice |
| Enumeration.WordsFrom | enron_search.py:147-156 | the words reported for letters c..'z' all continue the path with a letter at or after c, and none is reported twice |
| Enumeration.LookupAppend | enron_search.py:59-62 | following `a` then `b` down the trie is following `a + b` |
| Enumeration.WordsSpec | enron_search.py:132-156 | the words below a node are exactly the complete words of its subtree, spelled from the node's path, with their id lists |
| Enumeration.TrieSearchSpec | enron_search.py:158-175 | the prefix query on the trie returns exactly the complete words that start with the prefix, each with its id list |
| Enumeration.ValidBelow | enron_search.py:57-64 | every node of a well-shaped trie roots a well-shaped subtrie |
| Enumeration.WordsSorted | enron_search.py:132-156 | the depth-first walk reports words in strict dictionary order: a word before its extensions, and smaller letters first |
| Layout.ChildOffsetShape | enron_search.py:106-112 | a non-zero letter slot is the byte offset of an integer index j that is a multiple of 32, lies past the parent record, has a whole record from j on, and is never 0 |
| Serializer.EmitHeader | enron_search.py:90-101 | the end-of-word flag, posting run and leaf flag describe the node; its ids are appended to the posting file; nothing outside the header changes |
| Serializer.EmitChildren | enron_search.py:102-113 | the j-th child in key insertion order gets the j-th fresh zeroed record, the parent's slot for its letter points at that record, the child is enqueued with its index, and absent letters stay 0 |
| Serializer.Step | enron_search.py:88-113 | one dequeue appends the node's ids to the posting file, one fresh record per child to the node file and one queue entry per child, and keeps the breadth-first invariant: the records of dequeued nodes are finished, later records are blank, and the queue lists the nodes not yet dequeued with their record indices |
| Serializer.StepNames | enron_search.py:102-113 | after one dequeue, each appended child record is named by the parent's slot for its letter, and each non-zero slot of a processed record names exactly the record it points at |
| Serializer.LevelOrderStep | enron_search.py:88-113 | dequeuing the head and enqueuing its children in key insertion order advances the level-order traversal of the trie by one node |
| Serializer.LevelOrderDone | enron_search.py:88-113 | once the queue is empty, record k encodes the k-th node of the level-order traversal, for every node of the trie |
| Serializer.Serialize | enron_search.py:74-113 | the node file holds 32 × Count(root) integers, and record k encodes the k-th node of the level-order traversal of the trie (`LevelOrderOf`: breadth first, each node's children in key insertion order, root first), so record 0 encodes the whole trie. Every record but the root is named by exactly one letter slot, and no two letter slots hold the same non-zero offset. The posting file has one entry per stored id, and both files are well formed |
| Searcher.Put | enron_search.py:141-143 | assigning `res[word]` makes the key map to the new value and leaves every other key alone; a new key goes last, and an existing key keeps its position |
| Searcher.GetSpec | enron_search.py:141 | a key is found exactly when some entry has it |
| Searcher.Navigate | enron_search.py:163-172 | the prefix walk, when it succeeds, ends at a whole record |
| Searcher.Collect | enron_search.py:132-156 | every word the walk reports below a record extends the slate |
| Searcher.CollectFrom | enron_search.py:147-156 | every word reported from letter slots c..25 extends the slate with a letter at or after c |
| Searcher.ReadLabels | enron_search.py:135-143 | reading a record's posting run and naming each id gives the run's labels in order |
| Searcher.StoreWord | enron_search.py:134-143 | an end-of-word record adds its word with its labels at the end of the result, and any other record adds nothing |
| Searcher.Dfs | enron_search.py:132-156 | the walk from a record appends its report to the result, and the slate comes back unchanged |
| Searcher.DfsChildren | enron_search.py:147-156 | the letter loop appends the reports of the letter slots in letter order, and the slate comes back unchanged |
| Searcher.VisitSlot | enron_search.py:148-156 | a zero slot is skipped; otherwise the letter is pushed, the child record's report is appended, and the letter is popped |
| Searcher.Search | enron_search.py:158-175 | the query result is the labelled report of the record the prefix reaches, and it is empty when the prefix walk meets a zero slot |
| RoundTrip.NavigateFollowsLookup | enron_search.py:163-173 | the prefix walk over the files fails exactly when the trie has no node for the prefix, and otherwise stops at the record encoding that node |
| RoundTrip.CollectFollowsWords | enron_search.py:132-156 | the walk over an encoded record reports the same words, with the same ids and in the same order, as the walk over the trie node |
| RoundTrip.SearchRoundTrip | enron_search.py:158-175 | searching the files gives exactly what the prefix query on the encoded trie gives |
| RoundTrip.SearchSoundComplete | enron_search.py:158-175 | the file search reports (w, ids) exactly when w starts with the prefix and is a trie word with id list ids |
| RoundTrip.AbsentPrefixEmpty | enron_search.py:163-168 | a prefix with no trie node gives the empty result |
| RoundTrip.SearchSorted | enron_search.py:147-156 | the file search reports words in strict dictionary order |
| RoundTrip.GetLabelled | enron_search.py:140-143 | in the labelled result of a list with distinct words, each listed word maps to the labels of its ids, and no other key is present |
| RoundTrip.SearchDictionary | enron_search.py:132-175 | the result dictionary maps each trie word that starts with the prefix to the labels of its ids, and holds no other key |
| RoundTrip.SerializeThenSearch | enron_search.py:74-175 | serializing a trie and then searching gives, in dictionary order, each trie word that starts with the prefix, mapped to the labels of its ids in insertion order, and nothing else |
| RoundTrip.IndexThenSearch | enron_search.py:177-203 | indexing a token stream, serializing and searching maps exactly the indexed tokens that start with the prefix to their documents' labels, in stream order |

## Left out

- File I/O (`open`, `tofile`, `fromfile`, `seek`) and the hard-coded paths:
  files are arrays passed as values.
- The platform item size of `array('i')`, fixed here at 4 bytes.
- 32-bit overflow of the `array('i')` cells: integers are unbounded. A byte
  offset overflows only past 2^31 bytes, that is, more than 2^24 records or
  2^29 stored ids.
- `preprocess` tokenization (line splitting, punctuation stripping,
  lower-casing, stop words) and `main`. `Ingest` starts from the stream of
  (token, document index) pairs that tokenization produces. Per-document
  deduplication and enumeration order are stated as the preconditions
  `Distinct` and `InDocumentOrder`.
- Tokens and prefixes outside lower-case a..z. Every token and prefix is
  required to be lower-case a..z (`IsWord`). Two cases fall outside that:
  - Python's `isalpha` also accepts letters such as 'é', which `charToInt`
    maps outside 0..25.
  - `search` accepts an upper-case ASCII prefix, and Python's negative
    indexing gives it a meaning of its own. `charToInt('A')` is -32, and
    `serialized_node[-32]` of a 32-integer record is slot 0. So `search("Th")`
    walks the same records as `search("th")`, but the slate starts as "Th",
    so the reported keys start with "Th".
- The `character` field of `TrieNode`: it is written but never read.
- The `self.root is None` guard of `serialize` (lines 77-78): the root is never
  `None`.
- `search` returns `[]` on an absent prefix and a dictionary otherwise. Both
  are the empty `Dict` here.
- `self.email_files[id].strip()`: the parameter `nameOf`.
- The recursion-depth limit of `_dfs`. The walk (line 155) recurses once per
  letter below the record the prefix reaches, and Python stops it at its
  default limit of 1000 frames. A search for `p` therefore raises
  `RecursionError` once some indexed word is about 997 letters longer than
  `p`. `insert` and `serialize` are iterative, so such an index builds
  without trouble, and `isalpha` accepts a token that long. On that input
  `Searcher.Search`, `RoundTrip.SerializeThenSearch` and
  `RoundTrip.IndexThenSearch` report the word where Python raises, because
  the model's recursion has no depth bound.
- Malformed index files: short reads, seeks past the end, offsets that are
  not record boundaries, and letter slots that point back at an earlier record
  or at the record itself. Python copes with some of these and not with
  others:
  - A slot that points at its own record, or at a record on the current walk
    path, makes `_dfs` (line 155) recurse until Python's recursion limit.
  - A slot that points back at a record off the current path ends normally
    unless the walk from that record then reaches a cycle. When it ends,
    `_dfs` visits that record twice and reports its words a second time
    under another key. For example, if the 'b' slot of the root points at the
    record of "a", the words below "a" are reported again as words below "b".

  `Searcher` requires the arrays to be `WellFormed`: every child offset points
  forward at a whole record. This excludes every back pointer, including the
  ones Python walks without trouble, and it is what bounds the recursion of
  `Collect`. `Serializer.Serialize` establishes `WellFormed`.
- Trie.Insert: its own contract states the inserted word, its id list and the
  shape of the result. Which nodes exist afterwards is stated by
  `TrieInsert.InsertPaths`, and what stays unchanged by
  `TrieInsert.InsertKeepsOthers`.
- Searcher.Navigate: its own contract says only that the walk ends at a whole
  record. What the walk computes is stated by `RoundTrip.NavigateFollowsLookup`.
- Searcher.Collect: its own contract says only that reported words extend the
  slate. The exact report is stated by `RoundTrip.CollectFollowsWords`.

=== FILE: alphabet.dfy ===
/**
 * The 26-letter alphabet of the index: the conversion between a lowercase
 * letter and its slot number (`charToInt` / `intToChar`), and the string
 * vocabulary (words, prefixes) shared by the builder and the searcher.
 *
 * Line numbers in the comments below refer to `enron_search.py`.
 */
module Alphabet {

  /** NUM_ALPHABETS: one child slot per letter. */
  const NumAlphabets: int := 26

  predicate IsLetter(ch: char) {
    'a' <= ch <= 'z'
  }

  /** A token the index accepts: lowercase ASCII letters only. */
  predicate IsWord(w: string) {
    forall i | 0 <= i < |w| :: IsLetter(w[i])
  }

  /**
   * `charToInt`: the distance from 'a'. The source applies it unguarded; the
   * result is a valid slot number exactly when the character is a letter.
   */
  function CharToInt(ch: char): (i: int)
    ensures 0 <= i < NumAlphabets <==> IsLetter(ch)
  {
    ch as int - 'a' as int
  }

  /** `intToChar`: the letter of a slot number; inverse of `CharToInt`. */
  function IntToChar(i: int): (ch: char)
    requires 0 <= i < NumAlphabets
    ensures IsLetter(ch)
    ensures CharToInt(ch) == i
  {
    ('a' as int + i) as char
  }

  /** The other half of the round trip: a letter survives `CharToInt` then `IntToChar`. */
  lemma LetterRoundTrip(ch: char)
    requires IsLetter(ch)
    ensures IntToChar(CharToInt(ch)) == ch
  {
  }

  /** `p` is a prefix of `w`. */
  predicate IsPrefix<T(==)>(p: seq<T>, w: seq<T>) {
    |p| <= |w| && w[..|p|] == p
  }

  /**
   * `w` strictly extends `path` and the letter right after `path` has slot
   * number at least `c`: the words a depth-first walk can still produce once it
   * has reached letter `c` below `path`.
   */
  predicate StartsAbove(w: string, path: string, c: int) {
    |path| < |w| && w[..|path|] == path && c <= CharToInt(w[|path|])
  }

  /** Extending a path by one letter: `path + [ch]` is a prefix of `w` iff `path` is and `w` continues with `ch`. */
  lemma PrefixSnoc(path: string, ch: char, w: string)
    ensures IsPrefix(path + [ch], w) <==> (|path| < |w| && w[..|path|] == path && w[|path|] == ch)
  {
    if |path| < |w| {
      assert w[..|path| + 1] == w[..|path|] + [w[|path|]];
    }
  }

  /**
   * Dictionary order on strings: `a` is a proper prefix of `b`, or the two
   * agree up to some position where `a` has the smaller character.
   */
  predicate LexLess(a: string, b: string) {
    || (|a| < |b| && b[..|a|] == a)
    || (exists i | 0 <= i < |a| && i < |b| :: a[..i] == b[..i] && a[i] < b[i])
  }
}

=== FILE: enumeration.dfy ===
/**
 * The meaning of a prefix query on the in-memory trie: the complete words
 * below the node of the prefix, with their id lists, in the order a
 * depth-first walk visiting letters 'a'..'z' produces them.
 *
 * Line numbers in the comments below refer to `enron_search.py`.
 */
module Enumeration {
  import opened Wrappers
  import opened Alphabet
  import opened Trie

  type Matches = seq<(string, seq<int>)>

  predicate DistinctKeys<V>(ms: seq<(string, V)>) {
    forall i, j | 0 <= i < j < |ms| :: ms[i].0 != ms[j].0
  }

  /** Every complete word in the subtree `n`, spelled as `path` followed by its letters below `n`. */
  function Words(n: Node, path: string): (r: Matches)
    ensures forall i | 0 <= i < |r| :: IsPrefix(path, r[i].0)
    ensures DistinctKeys(r)
    decreases n, NumAlphabets + 1
  {
    var here := if n.isEnd then [(path, n.ids)] else [];
    var below := WordsFrom(n, path, 0);
    assert forall i | 0 <= i < |below| :: IsPrefix(path, below[i].0) && below[i].0 != path;
    here + below
  }

  /** The words below the children of `n` for letters `c`..'z', in letter order. */
  function WordsFrom(n: Node, path: string, c: int): (r: Matches)
    requires 0 <= c <= NumAlphabets
    ensures forall i | 0 <= i < |r| :: StartsAbove(r[i].0, path, c)
    ensures DistinctKeys(r)
    decreases n, NumAlphabets - c
  {
    if c == NumAlphabets then []
    else
      var ch := IntToChar(c);
      var first := if ch in n.children then Words(n.children[ch], path + [ch]) else [];
      var rest := WordsFrom(n, path, c + 1);
      assert forall i | 0 <= i < |first| :: StartsAbove(first[i].0, path, c) && first[i].0[|path|] == ch by {
        forall i | 0 <= i < |first| ensures StartsAbove(first[i].0, path, c) && first[i].0[|path|] == ch {
          PrefixSnoc(path, ch, first[i].0);
        }
      }
      first + rest
  }

  /** The query `search(prefix)` asks of the in-memory trie rooted at `root`. */
  function TrieSearch(root: Node, prefix: string): Matches {
    match Lookup(root, prefix)
    case None => []
    case Some(n) => Words(n, prefix)
  }

  /** Following `a` then `b` is following `a + b`. */
  lemma {:induction false} LookupAppend(n: Node, a: string, b: string)
    ensures Lookup(n, a + b) == (match Lookup(n, a) case None => None case Some(m) => Lookup(m, b))
    decreases |a|
  {
    if |a| == 0 {
      assert a + b == b;
    } else {
      assert (a + b)[0] == a[0] && (a + b)[1..] == a[1..] + b;
      if a[0] in n.children {
        LookupAppend(n.children[a[0]], a[1..], b);
      }
    }
  }

  /** In a valid trie only letter paths exist. */
  lemma {:induction false} LookupOnlyLetters(n: Node, s: string)
    requires Valid(n) && |s| > 0 && !IsLetter(s[0])
    ensures Lookup(n, s) == None
  {
  }

  /**
   * Soundness and completeness of the walk: a pair is produced exactly when its
   * word extends `path` and the rest of the word is a complete word of `n` with
   * that id list.
   */
  lemma {:induction false} WordsSpec(n: Node, path: string, w: string, ids: seq<int>)
    requires Valid(n)
    ensures (w, ids) in Words(n, path) <==> IsPrefix(path, w) && Entry(n, w[|path|..]) == Some(ids)
    decreases n, NumAlphabets + 1
  {
    var here: Matches := if n.isEnd then [(path, n.ids)] else [];
    assert Words(n, path) == here + WordsFrom(n, path, 0);
    WordsFromSpec(n, path, 0, w, ids);
    if IsPrefix(path, w) {
      if |w| == |path| {
        assert w == path && w[|path|..] == [];
        assert !StartsAbove(w, path, 0);
      } else if !IsLetter(w[|path|]) {
        LookupOnlyLetters(n, w[|path|..]);
        assert (w, ids) !in here;
      } else {
        assert (w, ids) !in here;
      }
    } else {
      assert (w, ids) !in here;
    }
  }

  lemma {:induction false} WordsFromSpec(n: Node, path: string, c: int, w: string, ids: seq<int>)
    requires Valid(n) && 0 <= c <= NumAlphabets
    ensures (w, ids) in WordsFrom(n, path, c) <==> StartsAbove(w, path, c) && Entry(n, w[|path|..]) == Some(ids)
    decreases n, NumAlphabets - c
  {
    if c == NumAlphabets {
      if StartsAbove(w, path, c) {
        LookupOnlyLetters(n, w[|path|..]);
      }
    } else {
      var ch := IntToChar(c);
      var first: Matches := if ch in n.children then Words(n.children[ch], path + [ch]) else [];
      assert WordsFrom(n, path, c) == first + WordsFrom(n, path, c + 1);
      WordsFromSpec(n, path, c + 1, w, ids);
      PrefixSnoc(path, ch, w);
      if |path| < |w| && w[..|path|] == path {
        var s := w[|path|..];
        assert s[0] == w[|path|] && s[1..] == w[|path| + 1..];
        if w[|path|] == ch {
          if ch in n.children {
            WordsSpec(n.children[ch], path + [ch], w, ids);
            assert Lookup(n, s) == Lookup(n.children[ch], w[|path| + 1..]);
          } else {
            assert Lookup(n, s) == None;
          }
        } else if CharToInt(w[|path|]) == c {
          LetterRoundTrip(w[|path|]);
        }
      } else if ch in n.children {
        WordsSpec(n.children[ch], path + [ch], w, ids);
      }
    }
  }

  /**
   * The prefix query on the in-memory trie returns exactly the complete words
   * that start with `prefix`, each with its id list.
   */
  lemma TrieSearchSpec(root: Node, prefix: string, w: string, ids: seq<int>)
    requires Valid(root)
    ensures (w, ids) in TrieSearch(root, prefix) <==> IsPrefix(prefix, w) && Entry(root, w) == Some(ids)
  {
    if IsPrefix(prefix, w) {
      assert w == prefix + w[|prefix|..];
      LookupAppend(root, prefix, w[|prefix|..]);
    }
    match Lookup(root, prefix)
    case None =>
    case Some(n) =>
      ValidBelow(root, prefix);
      WordsSpec(n, prefix, w, ids);
  }

  /** Every node of a valid trie roots a valid subtrie. */
  lemma {:induction false} ValidBelow(n: Node, p: string)
    requires Valid(n) && Lookup(n, p).Some?
    ensures Valid(Lookup(n, p).value)
    decreases |p|
  {
    if |p| > 0 {
      ValidBelow(n.children[p[0]], p[1..]);
    }
  }

  /** The words of a match list are in strictly increasing dictionary order. */
  predicate Sorted<V>(ms: seq<(string, V)>) {
    forall i, j | 0 <= i < j < |ms| :: LexLess(ms[i].0, ms[j].0)
  }

  /** Two sorted lists, every word of the first before every word of the second, join into a sorted list. */
  lemma SortedAppend(a: Matches, b: Matches)
    requires Sorted(a) && Sorted(b)
    requires forall i, j | 0 <= i < |a| && 0 <= j < |b| :: LexLess(a[i].0, b[j].0)
    ensures Sorted(a + b)
  {
    var r := a + b;
    forall i, j | 0 <= i < j < |r| ensures LexLess(r[i].0, r[j].0) {
      if j < |a| {
        assert r[i] == a[i] && r[j] == a[j];
      } else if i < |a| {
        assert r[i] == a[i] && r[j] == b[j - |a|];
      } else {
        assert r[i] == b[i - |a|] && r[j] == b[j - |a|];
      }
    }
  }

  /**
   * The walk reports words in dictionary order: a word before its extensions,
   * and the words below a smaller letter before those below a larger one.
   */
  lemma {:induction false} WordsSorted(n: Node, path: string)
    ensures Sorted(Words(n, path))
    decreases n, NumAlphabets + 1
  {
    var here: Matches := if n.isEnd then [(path, n.ids)] else [];
    var below := WordsFrom(n, path, 0);
    WordsFromSorted(n, path, 0);
    forall i, j | 0 <= i < |here| && 0 <= j < |below| ensures LexLess(here[i].0, below[j].0) {
      assert StartsAbove(below[j].0, path, 0);
    }
    SortedAppend(here, below);
  }

  lemma {:induction false} WordsFromSorted(n: Node, path: string, c: int)
    requires 0 <= c <= NumAlphabets
    ensures Sorted(WordsFrom(n, path, c))
    decreases n, NumAlphabets - c
  {
    if c < NumAlphabets {
      var ch := IntToChar(c);
      var first: Matches := if ch in n.children then Words(n.children[ch], path + [ch]) else [];
      var rest := WordsFrom(n, path, c + 1);
      if ch in n.children {
        WordsSorted(n.children[ch], path + [ch]);
      }
      WordsFromSorted(n, path, c + 1);
      forall i, j | 0 <= i < |first| && 0 <= j < |rest| ensures LexLess(first[i].0, rest[j].0) {
        var x, y := first[i].0, rest[j].0;
        PrefixSnoc(path, ch, x);
        assert StartsAbove(y, path, c + 1);
        assert x[..|path|] == y[..|path|] && x[|path|] < y[|path|];
      }
      SortedAppend(first, rest);
    }
  }
}

=== FILE: ingest.dfy ===
/**
 * Building a trie from the stream of (token, document index) pairs the
 * ingestion step feeds to `Trie.insert`, one `insert` per pair, in order.
 *
 * Line numbers in the comments below refer to `enron_search.py`.
 */
module Ingest {
  import opened Alphabet
  import opened Trie
  import opened TrieInsert

  type Pair = (string, int)

  /** `Trie()` followed by `insert(w, id)` for each pair in turn. */
  function Build(pairs: seq<Pair>): (t: Node)
    ensures (forall i | 0 <= i < |pairs| :: IsWord(pairs[i].0)) ==> Valid(t)
  {
    if |pairs| == 0 then NewNode()
    else
      var last := pairs[|pairs| - 1];
      Insert(Build(pairs[..|pairs| - 1]), last.0, last.1)
  }

  /** The ids paired with `w`, in stream order. */
  function IdsFor(pairs: seq<Pair>, w: string): seq<int> {
    if |pairs| == 0 then []
    else
      var last := pairs[|pairs| - 1];
      IdsFor(pairs[..|pairs| - 1], w) + (if last.0 == w then [last.1] else [])
  }

  /**
   * After the whole stream, a string is a word of the trie exactly when some
   * pair carries it, and its id list is the ids paired with it, in insertion order.
   */
  lemma {:induction false} BuildEntries(pairs: seq<Pair>, w: string)
    ensures IsEndAt(Build(pairs), w) <==> |IdsFor(pairs, w)| > 0
    ensures IdsAt(Build(pairs), w) == IdsFor(pairs, w)
  {
    if |pairs| == 0 {
      NewNodeEmpty(w);
    } else {
      var init := pairs[..|pairs| - 1];
      var last := pairs[|pairs| - 1];
      BuildEntries(init, w);
      if last.0 != w {
        InsertKeepsOthers(Build(init), last.0, last.1, w);
      }
    }
  }

  /** An id belongs to the list of `w` exactly when the stream holds the pair (w, id). */
  lemma {:induction false} IdsForMembers(pairs: seq<Pair>, w: string, id: int)
    ensures id in IdsFor(pairs, w) <==> (w, id) in pairs
  {
    if |pairs| > 0 {
      var init := pairs[..|pairs| - 1];
      IdsForMembers(init, w, id);
      assert pairs == init + [pairs[|pairs| - 1]];
    }
  }

  /**
   * The ingestion step adds each word at most once per document, so the stream
   * never repeats a pair; then no posting list holds a document twice.
   */
  lemma {:induction false} NoDuplicatePostings(pairs: seq<Pair>, w: string)
    requires Distinct(pairs)
    ensures Distinct(IdsAt(Build(pairs), w))
  {
    BuildEntries(pairs, w);
    IdsForDistinct(pairs, w);
  }

  lemma {:induction false} IdsForDistinct(pairs: seq<Pair>, w: string)
    requires Distinct(pairs)
    ensures Distinct(IdsFor(pairs, w))
  {
    if |pairs| > 0 {
      var init := pairs[..|pairs| - 1];
      var last := pairs[|pairs| - 1];
      assert Distinct(init);
      IdsForDistinct(init, w);
      if last.0 == w {
        IdsForMembers(init, w, last.1);
        assert last !in init;
      }
    }
  }

  /** Document indices never decrease along the stream, as `enumerate` hands them out (line 183). */
  predicate InDocumentOrder(pairs: seq<Pair>) {
    forall i, j | 0 <= i < j < |pairs| :: pairs[i].1 <= pairs[j].1
  }

  predicate StrictlyIncreasing(s: seq<int>) {
    forall i, j | 0 <= i < j < |s| :: s[i] < s[j]
  }

  /**
   * Documents are read in index order and each adds a word at most once, so
   * every posting list comes out strictly increasing.
   */
  lemma {:induction false} PostingsIncrease(pairs: seq<Pair>, w: string)
    requires Distinct(pairs) && InDocumentOrder(pairs)
    ensures StrictlyIncreasing(IdsAt(Build(pairs), w))
  {
    BuildEntries(pairs, w);
    IdsForIncrease(pairs, w);
  }

  lemma {:induction false} IdsForIncrease(pairs: seq<Pair>, w: string)
    requires Distinct(pairs) && InDocumentOrder(pairs)
    ensures StrictlyIncreasing(IdsFor(pairs, w))
    ensures forall i | 0 <= i < |IdsFor(pairs, w)| :: exists j | 0 <= j < |pairs| :: pairs[j] == (w, IdsFor(pairs, w)[i])
  {
    if |pairs| > 0 {
      var init := pairs[..|pairs| - 1];
      var last := pairs[|pairs| - 1];
      assert Distinct(init);
      IdsForIncrease(init, w);
      var prev := IdsFor(init, w);
      var ids := IdsFor(pairs, w);
      forall i | 0 <= i < |ids| ensures exists j | 0 <= j < |pairs| :: pairs[j] == (w, ids[i]) {
        if i < |prev| {
          var j :| 0 <= j < |init| && init[j] == (w, prev[i]);
          assert pairs[j] == (w, ids[i]);
        } else {
          assert pairs[|pairs| - 1] == (w, ids[i]);
        }
      }
      if last.0 == w {
        forall i | 0 <= i < |prev| ensures prev[i] < last.1 {
          var j :| 0 <= j < |init| && init[j] == (w, prev[i]);
          assert pairs[j] == init[j];
          assert pairs[j] != last;
        }
      }
    }
  }
}

=== FILE: layout.dfy ===
/**
 * The persisted format. Both files are arrays of 4-byte signed integers and
 * are modelled as `seq<int>` with the item size fixed at 4, so a seek to byte
 * offset `o` reads from integer index `o / 4`.
 *
 * The node file is a sequence of 32-integer records; record number `k` holds
 * integers `32 * k .. 32 * k + 32` and starts at byte offset `128 * k`.
 * Slots 0..25 hold the byte offset of each letter's child (0 = no child),
 * slot 26 the end-of-word flag, slot 27 the leaf flag, slot 28 the byte offset
 * of the node's posting run in the posting file and slot 29 its length;
 * slots 30 and 31 are reserved.
 *
 * Line numbers in the comments below refer to `enron_search.py`.
 */
module Layout {
  import opened Alphabet
  import opened Trie

  const NodeSize: int := 32        // SERIALIZED_NODE_SIZE
  const EndOfWordIdx: int := 26    // END_OF_WORD_IDX
  const IsLeafIdx: int := 27       // IS_LEAF_IDX
  const PostOffsetIdx: int := 28   // EMAIL_IDS_OFFSET_IDX
  const PostSizeIdx: int := 29     // EMAIL_IDS_SIZE_IDX
  const ItemSize: int := 4         // array('i').itemsize

  /** `getByteOffset`: the byte offset of integer index `idx`. */
  function ByteOffset(idx: int): int {
    idx * ItemSize
  }

  /** The record number a byte offset in the node file points at. */
  function RecordOfOffset(off: int): int {
    off / (ItemSize * NodeSize)
  }

  predicate HasRecord(arr: seq<int>, k: int) {
    0 <= k && NodeSize * k + NodeSize <= |arr|
  }

  /** Slot `s` of record `k`. */
  function Slot(arr: seq<int>, k: int, s: int): int
    requires HasRecord(arr, k) && 0 <= s < NodeSize
  {
    arr[NodeSize * k + s]
  }

  /** `off` is a valid child offset for record `k`: it addresses a whole record placed after `k`. */
  predicate IsChildOffset(arr: seq<int>, k: int, off: int) {
    off % (ItemSize * NodeSize) == 0 && k < RecordOfOffset(off) && HasRecord(arr, RecordOfOffset(off))
  }

  /** The posting run (`off`, `size`) lies inside the posting file. */
  predicate RunInRange(post: seq<int>, off: int, size: int) {
    0 <= off && off % ItemSize == 0 && 0 <= size && off / ItemSize + size <= |post|
  }

  /** The `size` ids starting at byte offset `off` of the posting file. */
  function Run(post: seq<int>, off: int, size: int): (r: seq<int>)
    requires RunInRange(post, off, size)
    ensures |r| == size
  {
    post[off / ItemSize .. off / ItemSize + size]
  }

  /** The posting run named by the header of record `k`. */
  function RecordRun(arr: seq<int>, post: seq<int>, k: int): seq<int>
    requires HasRecord(arr, k) && RunInRange(post, Slot(arr, k, PostOffsetIdx), Slot(arr, k, PostSizeIdx))
  {
    Run(post, Slot(arr, k, PostOffsetIdx), Slot(arr, k, PostSizeIdx))
  }

  /**
   * The node file is a whole number of records with a root record, and every
   * non-zero letter slot points forward at a whole record.
   */
  ghost predicate NodesWellFormed(arr: seq<int>) {
    && |arr| % NodeSize == 0
    && HasRecord(arr, 0)
    && forall k, c | HasRecord(arr, k) && 0 <= c < NumAlphabets ::
         Slot(arr, k, c) == 0 || IsChildOffset(arr, k, Slot(arr, k, c))
  }

  /** Every end-of-word record names a posting run inside the posting file. */
  ghost predicate RunsWellFormed(arr: seq<int>, post: seq<int>) {
    forall k | HasRecord(arr, k) && Slot(arr, k, EndOfWordIdx) == 1 ::
      RunInRange(post, Slot(arr, k, PostOffsetIdx), Slot(arr, k, PostSizeIdx))
  }

  /** A pair of files the searcher can walk without reading outside either file. */
  ghost predicate WellFormed(arr: seq<int>, post: seq<int>) {
    NodesWellFormed(arr) && RunsWellFormed(arr, post)
  }

  /**
   * The header slots of record `k` describe node `n`: the flags, the posting
   * run (zero when the node is not the end of a word) and the reserved slots.
   */
  ghost predicate HeaderOK(arr: seq<int>, post: seq<int>, k: int, n: Node)
    requires HasRecord(arr, k)
  {
    && Slot(arr, k, EndOfWordIdx) == (if n.isEnd then 1 else 0)
    && Slot(arr, k, IsLeafIdx) == (if |n.children| == 0 then 1 else 0)
    && (n.isEnd ==>
          RunInRange(post, Slot(arr, k, PostOffsetIdx), Slot(arr, k, PostSizeIdx))
          && RecordRun(arr, post, k) == n.ids)
    && (!n.isEnd ==> Slot(arr, k, PostOffsetIdx) == 0 && Slot(arr, k, PostSizeIdx) == 0)
    && Slot(arr, k, 30) == 0 && Slot(arr, k, 31) == 0
  }

  /**
   * Record `k` is the serialization of the subtree `n`: its header describes
   * `n`, and each letter slot is 0 when `n` has no child for that letter and
   * otherwise points forward at a record that is the serialization of the child.
   */
  ghost predicate Encodes(arr: seq<int>, post: seq<int>, k: int, n: Node)
    decreases n
  {
    && HasRecord(arr, k)
    && HeaderOK(arr, post, k, n)
    && forall c | 0 <= c < NumAlphabets ::
         if IntToChar(c) in n.children then
           IsChildOffset(arr, k, Slot(arr, k, c))
           && Encodes(arr, post, RecordOfOffset(Slot(arr, k, c)), n.children[IntToChar(c)])
         else
           Slot(arr, k, c) == 0
  }

  /**
   * Every record but the root is the child of exactly one letter slot: some
   * slot of the file holds its byte offset, and no two letter slots hold the
   * same non-zero offset. Together with a record count equal to the number of
   * trie nodes, each node has a record of its own.
   */
  ghost predicate NamedOnce(arr: seq<int>) {
    && (forall k | 0 < k && HasRecord(arr, k) ::
          exists p, c | HasRecord(arr, p) && 0 <= c < NumAlphabets :: Slot(arr, p, c) == ByteOffset(NodeSize * k))
    && (forall p1, c1, p2, c2 |
          HasRecord(arr, p1) && HasRecord(arr, p2) && 0 <= c1 < NumAlphabets && 0 <= c2 < NumAlphabets
          && Slot(arr, p1, c1) != 0 && Slot(arr, p1, c1) == Slot(arr, p2, c2) ::
          p1 == p2 && c1 == c2)
  }

  /**
   * In a well-formed node file a non-zero letter slot of record `k` is the
   * byte offset of integer index `j`, where `j` is a multiple of 32 beyond
   * record `k`'s own index with a whole record from `j` on; in particular it
   * is never 0, the root's offset.
   */
  lemma ChildOffsetShape(arr: seq<int>, k: int, c: int)
    requires NodesWellFormed(arr) && HasRecord(arr, k) && 0 <= c < NumAlphabets
    requires Slot(arr, k, c) != 0
    ensures var j := NodeSize * RecordOfOffset(Slot(arr, k, c));
            && Slot(arr, k, c) == ByteOffset(j)
            && j % NodeSize == 0 && NodeSize * k < j && j + NodeSize <= |arr|
            && Slot(arr, k, c) > 0
  {
    var off := Slot(arr, k, c);
    assert IsChildOffset(arr, k, off);
  }
}

=== FILE: roundtrip.dfy ===
/**
 * The persisted index answers prefix queries exactly as the in-memory trie
 * does: walking the files the serializer wrote finds the same node for every
 * prefix, and the depth-first walk over records reports the same words with
 * the same id lists in the same order as the walk over the trie.
 *
 * Line numbers in the comments below refer to `enron_search.py`.
 */
module RoundTrip {
  import opened Wrappers
  import opened Alphabet
  import opened Trie
  import opened Ingest
  import opened Enumeration
  import opened Layout
  import opened Serializer
  import opened Searcher

  /** A non-zero slot of a record is a child offset, so it is never 0. */
  lemma ChildOffsetNonZero(arr: seq<int>, k: int, off: int)
    requires 0 <= k && IsChildOffset(arr, k, off)
    ensures off != 0
  {
  }

  /**
   * The prefix walk over the files follows the trie: it fails exactly when the
   * trie has no node for the prefix, and otherwise stops at the record that
   * encodes that node.
   */
  lemma {:induction false} NavigateFollowsLookup(arr: seq<int>, post: seq<int>, k: int, n: Node, p: string)
    requires WellFormed(arr, post) && Encodes(arr, post, k, n) && IsWord(p)
    ensures Navigate(arr, k, p).None? <==> Lookup(n, p).None?
    ensures Lookup(n, p).Some? ==> Encodes(arr, post, Navigate(arr, k, p).value, Lookup(n, p).value)
    decreases |p|
  {
    if |p| > 0 {
      var ch := p[0];
      var c := CharToInt(ch);
      LetterRoundTrip(ch);
      assert IntToChar(c) == ch;
      assert IsWord(p[1..]) by {
        forall i | 0 <= i < |p[1..]| ensures IsLetter(p[1..][i]) {
          assert p[1..][i] == p[i + 1];
        }
      }
      if ch in n.children {
        var off := Slot(arr, k, c);
        ChildOffsetNonZero(arr, k, off);
        NavigateFollowsLookup(arr, post, RecordOfOffset(off), n.children[ch], p[1..]);
      }
    }
  }

  /** A node without children has no words below its letters. */
  lemma {:induction false} NoChildrenNoWords(n: Node, path: string, c: int)
    requires |n.children| == 0 && 0 <= c <= NumAlphabets
    ensures WordsFrom(n, path, c) == []
    decreases NumAlphabets - c
  {
    if c < NumAlphabets {
      assert IntToChar(c) !in n.children;
      NoChildrenNoWords(n, path, c + 1);
    }
  }

  /**
   * The depth-first walk over a record reports exactly what the walk over the
   * node it encodes yields: the same words, the same id lists, the same order.
   * A leaf flag of 1 stops the walk only where the node has no children.
   */
  lemma {:induction false} CollectFollowsWords(arr: seq<int>, post: seq<int>, k: int, n: Node, path: string)
    requires WellFormed(arr, post) && Encodes(arr, post, k, n)
    ensures Collect(arr, post, k, path) == Words(n, path)
    decreases n, NumAlphabets + 1
  {
    var here: Matches := if n.isEnd then [(path, n.ids)] else [];
    assert HereReport(arr, post, k, path) == here;
    if |n.children| == 0 {
      NoChildrenNoWords(n, path, 0);
      assert Words(n, path) == here + [];
    } else {
      CollectFromFollowsWordsFrom(arr, post, k, n, path, 0);
    }
  }

  lemma {:induction false} CollectFromFollowsWordsFrom(arr: seq<int>, post: seq<int>, k: int, n: Node, path: string, c: int)
    requires WellFormed(arr, post) && Encodes(arr, post, k, n) && 0 <= c <= NumAlphabets
    ensures CollectFrom(arr, post, k, path, c) == WordsFrom(n, path, c)
    decreases n, NumAlphabets - c
  {
    if c < NumAlphabets {
      var ch := IntToChar(c);
      CollectFromFollowsWordsFrom(arr, post, k, n, path, c + 1);
      if ch in n.children {
        var off := Slot(arr, k, c);
        ChildOffsetNonZero(arr, k, off);
        CollectFollowsWords(arr, post, RecordOfOffset(off), n.children[ch], path + [ch]);
      }
    }
  }

  /**
   * Searching the files for `prefix` yields what the trie query yields: every
   * word of the trie starting with `prefix`, with its ids, in the walk's order;
   * nothing when no word starts with it.
   */
  lemma SearchRoundTrip(root: Node, arr: seq<int>, post: seq<int>, prefix: string)
    requires WellFormed(arr, post) && Encodes(arr, post, 0, root) && IsWord(prefix)
    ensures SearchIds(arr, post, prefix) == TrieSearch(root, prefix)
  {
    NavigateFollowsLookup(arr, post, 0, root, prefix);
    match Lookup(root, prefix)
    case None =>
    case Some(n) =>
      CollectFollowsWords(arr, post, Navigate(arr, 0, prefix).value, n, prefix);
  }

  /**
   * Soundness and completeness of the file search: it reports (w, ids) exactly
   * when `w` starts with `prefix` and is a word of the trie with id list `ids`.
   */
  lemma SearchSoundComplete(root: Node, arr: seq<int>, post: seq<int>, prefix: string, w: string, ids: seq<int>)
    requires Valid(root) && WellFormed(arr, post) && Encodes(arr, post, 0, root) && IsWord(prefix)
    ensures (w, ids) in SearchIds(arr, post, prefix) <==> IsPrefix(prefix, w) && Entry(root, w) == Some(ids)
  {
    SearchRoundTrip(root, arr, post, prefix);
    TrieSearchSpec(root, prefix, w, ids);
  }

  /** A prefix the trie does not have gives the empty result. */
  lemma AbsentPrefixEmpty(root: Node, arr: seq<int>, post: seq<int>, prefix: string)
    requires WellFormed(arr, post) && Encodes(arr, post, 0, root) && IsWord(prefix)
    requires Lookup(root, prefix).None?
    ensures SearchIds(arr, post, prefix) == []
  {
    NavigateFollowsLookup(arr, post, 0, root, prefix);
  }

  /** The file search reports its words in dictionary order. */
  lemma SearchSorted(root: Node, arr: seq<int>, post: seq<int>, prefix: string)
    requires WellFormed(arr, post) && Encodes(arr, post, 0, root) && IsWord(prefix)
    ensures Sorted(SearchIds(arr, post, prefix))
  {
    SearchRoundTrip(root, arr, post, prefix);
    match Lookup(root, prefix)
    case None =>
    case Some(n) =>
      WordsSorted(n, prefix);
  }

  /** Looking up a word in the labelled result of a list with distinct words. */
  lemma {:induction false} GetLabelled(ms: Matches, nameOf: int -> string, w: string)
    requires DistinctKeys(ms)
    ensures Get(Labelled(ms, nameOf), w).Some? <==> exists i | 0 <= i < |ms| :: ms[i].0 == w
    ensures forall i | 0 <= i < |ms| && ms[i].0 == w :: Get(Labelled(ms, nameOf), w) == Some(Labels(ms[i].1, nameOf))
    decreases |ms|
  {
    var d := Labelled(ms, nameOf);
    if |ms| > 0 {
      assert d[1..] == Labelled(ms[1..], nameOf);
      GetLabelled(ms[1..], nameOf, w);
      if exists i | 0 <= i < |ms| :: ms[i].0 == w {
        var i :| 0 <= i < |ms| && ms[i].0 == w;
        if i > 0 {
          assert ms[1..][i - 1].0 == w;
        }
      }
      forall i | 0 <= i < |ms| && ms[i].0 == w ensures Get(d, w) == Some(Labels(ms[i].1, nameOf)) {
        if i > 0 {
          assert ms[0].0 != w;
          assert ms[1..][i - 1] == ms[i];
        }
      }
    }
  }

  /**
   * The result dictionary of a search over the files holds, for each word of
   * the trie that starts with `prefix`, the labels of its ids in order, and no
   * other key.
   */
  lemma SearchDictionary(root: Node, arr: seq<int>, post: seq<int>, prefix: string, nameOf: int -> string, w: string)
    requires Valid(root) && WellFormed(arr, post) && Encodes(arr, post, 0, root) && IsWord(prefix)
    ensures Get(Labelled(SearchIds(arr, post, prefix), nameOf), w)
            == if IsPrefix(prefix, w) && IsEndAt(root, w) then Some(Labels(IdsAt(root, w), nameOf)) else None
  {
    var ms := SearchIds(arr, post, prefix);
    SearchRoundTrip(root, arr, post, prefix);
    assert DistinctKeys(ms);
    GetLabelled(ms, nameOf, w);
    if IsPrefix(prefix, w) && IsEndAt(root, w) {
      SearchSoundComplete(root, arr, post, prefix, w, IdsAt(root, w));
      var i :| 0 <= i < |ms| && ms[i] == (w, IdsAt(root, w));
    } else {
      forall i | 0 <= i < |ms| ensures ms[i].0 != w {
        SearchSoundComplete(root, arr, post, prefix, ms[i].0, ms[i].1);
        assert (ms[i].0, ms[i].1) in ms;
      }
    }
  }

  /**
   * Serializing a trie and then searching the files (lines 74-113 followed by
   * lines 158-175): the result maps each trie word that starts with `prefix`
   * to the labels of its ids in insertion order, and holds nothing else.
   */
  method SerializeThenSearch(root: Node, prefix: string, nameOf: int -> string) returns (res: Dict)
    requires Valid(root) && IsWord(prefix)
    ensures res == Labelled(TrieSearch(root, prefix), nameOf)
    ensures Sorted(res)
    ensures forall w :: Get(res, w) == if IsPrefix(prefix, w) && IsEndAt(root, w) then Some(Labels(IdsAt(root, w), nameOf)) else None
  {
    var arr, post := Serialize(root);
    res := Search(arr, post, nameOf, prefix);
    SearchRoundTrip(root, arr, post, prefix);
    SearchSorted(root, arr, post, prefix);
    forall w ensures Get(res, w) == if IsPrefix(prefix, w) && IsEndAt(root, w) then Some(Labels(IdsAt(root, w), nameOf)) else None {
      SearchDictionary(root, arr, post, prefix, nameOf, w);
    }
  }

  /**
   * The whole pipeline over a stream of (token, document) pairs: insert them
   * all, serialize, search. Each key of the result is a token starting with
   * `prefix`, and its value labels the documents paired with it, in stream
   * order; every such token is a key.
   */
  method IndexThenSearch(pairs: seq<Pair>, prefix: string, nameOf: int -> string) returns (res: Dict)
    requires forall i | 0 <= i < |pairs| :: IsWord(pairs[i].0)
    requires IsWord(prefix)
    ensures Sorted(res)
    ensures forall w :: Get(res, w) == if IsPrefix(prefix, w) && |IdsFor(pairs, w)| > 0 then Some(Labels(IdsFor(pairs, w), nameOf)) else None
  {
    var root := Build(pairs);
    res := SerializeThenSearch(root, prefix, nameOf);
    forall w ensures Get(res, w) == if IsPrefix(prefix, w) && |IdsFor(pairs, w)| > 0 then Some(Labels(IdsFor(pairs, w), nameOf)) else None {
      BuildEntries(pairs, w);
    }
  }
}

=== FILE: searcher.dfy ===
/**
 * `PrefixSearcher` (`enron_search.py` lines 122-175): answers a prefix query
 * by seeking through the two persisted files. The files are the `seq<int>`
 * arrays of the Layout module; a seek to byte offset `o` followed by a read
 * of one record is record `o / 128` of the node file, which is a whole record
 * whenever the file is well formed. The email-file list lookup
 * `self.email_files[email_id].strip()` is the parameter `nameOf`.
 *
 * Line numbers in the comments below refer to `enron_search.py`.
 */
module Searcher {
  import opened Wrappers
  import opened Alphabet
  import opened Layout
  import opened Enumeration

  /** The result dictionary `res`: word to file names, in key insertion order. */
  type Dict = seq<(string, seq<string>)>

  /** The value stored under `key`, if any. */
  function Get(d: Dict, key: string): Option<seq<string>>
  {
    if |d| == 0 then None
    else if d[0].0 == key then Some(d[0].1)
    else Get(d[1..], key)
  }

  /** `d[key] = v`: an existing key keeps its position and takes the new value, a new key goes last. */
  function Put(d: Dict, key: string, v: seq<string>): (r: Dict)
    ensures Get(r, key) == Some(v)
    ensures forall other | other != key :: Get(r, other) == Get(d, other)
    ensures Get(d, key).None? ==> r == d + [(key, v)]
    ensures Get(d, key).Some? ==> |r| == |d| && forall i | 0 <= i < |d| :: r[i].0 == d[i].0
  {
    if |d| == 0 then [(key, v)]
    else if d[0].0 == key then [(key, v)] + d[1..]
    else
      assert d == [d[0]] + d[1..];
      [d[0]] + Put(d[1..], key, v)
  }

  /** `Get` finds exactly the keys listed in the dictionary. */
  lemma {:induction false} GetSpec(d: Dict, key: string)
    ensures Get(d, key).Some? <==> exists i | 0 <= i < |d| :: d[i].0 == key
    decreases |d|
  {
    if |d| > 0 {
      GetSpec(d[1..], key);
      if exists i | 0 <= i < |d| :: d[i].0 == key {
        var i :| 0 <= i < |d| && d[i].0 == key;
        if i > 0 {
          assert d[1..][i - 1].0 == key;
        }
      }
    }
  }

  /** The file names of a posting run, in posting order (the append loop of lines 142-143). */
  function Labels(ids: seq<int>, nameOf: int -> string): (r: seq<string>)
    ensures |r| == |ids|
    ensures forall j | 0 <= j < |ids| :: r[j] == nameOf(ids[j])
  {
    seq(|ids|, j requires 0 <= j < |ids| => nameOf(ids[j]))
  }

  /** A list of (word, ids) matches as the dictionary the searcher builds. */
  function Labelled(ms: Matches, nameOf: int -> string): (r: Dict)
    ensures |r| == |ms|
    ensures forall i | 0 <= i < |ms| :: r[i] == (ms[i].0, Labels(ms[i].1, nameOf))
  {
    seq(|ms|, i requires 0 <= i < |ms| => (ms[i].0, Labels(ms[i].1, nameOf)))
  }

  lemma LabelledAppend(a: Matches, b: Matches, nameOf: int -> string)
    ensures Labelled(a + b, nameOf) == Labelled(a, nameOf) + Labelled(b, nameOf)
  {
  }

  /**
   * The record the prefix walk of lines 164-173 ends at when it starts from
   * record `k`: each letter's slot is followed, and a zero slot means the
   * prefix is absent.
   */
  function Navigate(arr: seq<int>, k: int, prefix: string): (r: Option<int>)
    requires NodesWellFormed(arr) && HasRecord(arr, k) && IsWord(prefix)
    ensures r.Some? ==> HasRecord(arr, r.value)
    decreases |prefix|
  {
    if |prefix| == 0 then Some(k)
    else
      var off := Slot(arr, k, CharToInt(prefix[0]));
      if off == 0 then None
      else Navigate(arr, RecordOfOffset(off), prefix[1..])
  }

  /**
   * What `_dfs` (lines 132-156) reports for record `k` reached along `slate`:
   * the record's own word first when its end-of-word flag is 1, then, unless
   * its leaf flag is 1, the reports of its non-zero letter slots in letter
   * order.
   */
  function Collect(arr: seq<int>, post: seq<int>, k: int, slate: string): (r: Matches)
    requires WellFormed(arr, post) && HasRecord(arr, k)
    ensures forall i | 0 <= i < |r| :: IsPrefix(slate, r[i].0)
    decreases |arr| - NodeSize * k, NumAlphabets + 1
  {
    var here := HereReport(arr, post, k, slate);
    if Slot(arr, k, IsLeafIdx) == 1 then here
    else
      var below := CollectFrom(arr, post, k, slate, 0);
      here + below
  }

  /** Record `k`'s own word: the slate with the record's posting run, when its end-of-word flag is 1. */
  function HereReport(arr: seq<int>, post: seq<int>, k: int, slate: string): (r: Matches)
    requires WellFormed(arr, post) && HasRecord(arr, k)
    ensures |r| <= 1 && forall i | 0 <= i < |r| :: r[i].0 == slate
  {
    if Slot(arr, k, EndOfWordIdx) == 1 then [(slate, RecordRun(arr, post, k))] else []
  }

  /** The reports of the letter slots `c`..25 of record `k`, in letter order. */
  function CollectFrom(arr: seq<int>, post: seq<int>, k: int, slate: string, c: int): (r: Matches)
    requires WellFormed(arr, post) && HasRecord(arr, k) && 0 <= c <= NumAlphabets
    ensures forall i | 0 <= i < |r| :: StartsAbove(r[i].0, slate, c)
    decreases |arr| - NodeSize * k, NumAlphabets - c
  {
    if c == NumAlphabets then []
    else
      var off := Slot(arr, k, c);
      var rest := CollectFrom(arr, post, k, slate, c + 1);
      if off == 0 then rest
      else
        var ch := IntToChar(c);
        var first := Collect(arr, post, RecordOfOffset(off), slate + [ch]);
        assert forall i | 0 <= i < |first| :: StartsAbove(first[i].0, slate, c) by {
          forall i | 0 <= i < |first| ensures StartsAbove(first[i].0, slate, c) {
            PrefixSnoc(slate, ch, first[i].0);
          }
        }
        first + rest
  }

  /** The (word, ids) pairs `search(prefix)` reports: nothing when the prefix walk fails. */
  function SearchIds(arr: seq<int>, post: seq<int>, prefix: string): Matches
    requires WellFormed(arr, post) && IsWord(prefix)
  {
    match Navigate(arr, 0, prefix)
    case None => []
    case Some(k) => Collect(arr, post, k, prefix)
  }

  /** Reading the posting run of record `k` and labelling it, as lines 136-143 do. */
  method ReadLabels(arr: seq<int>, post: seq<int>, nameOf: int -> string, k: int) returns (names: seq<string>)
    requires WellFormed(arr, post) && HasRecord(arr, k) && Slot(arr, k, EndOfWordIdx) == 1
    ensures names == Labels(RecordRun(arr, post, k), nameOf)
  {
    var off := Slot(arr, k, PostOffsetIdx);
    var size := Slot(arr, k, PostSizeIdx);
    var ids := post[off / ItemSize .. off / ItemSize + size];
    names := [];
    var i := 0;
    while i < |ids|
      invariant 0 <= i <= |ids|
      invariant names == Labels(ids[..i], nameOf)
    {
      names := names + [nameOf(ids[i])];
      i := i + 1;
    }
    assert ids[..i] == ids;
  }

  /**
   * `_dfs` (lines 132-156): record `k`'s word, if any, is stored under the
   * slate; unless the leaf flag is set, each non-zero letter slot is visited
   * in letter order with its letter pushed on the slate and popped after.
   * The caller's dictionary holds no word extending the slate, so every
   * store appends and the slate comes back as it went in.
   */
  method Dfs(arr: seq<int>, post: seq<int>, nameOf: int -> string, k: int, slate: string, res: Dict)
    returns (slate': string, res': Dict)
    requires WellFormed(arr, post) && HasRecord(arr, k)
    requires forall i | 0 <= i < |res| :: !IsPrefix(slate, res[i].0)
    ensures slate' == slate
    ensures res' == res + Labelled(Collect(arr, post, k, slate), nameOf)
    decreases |arr| - NodeSize * k, 2
  {
    slate' := slate;
    res' := StoreWord(arr, post, nameOf, k, slate, res);
    if Slot(arr, k, IsLeafIdx) == 1 {
      return;
    }
    ghost var mid := res';
    ghost var here := HereReport(arr, post, k, slate);
    FreshAfterStore(res, mid, here, slate, nameOf);
    slate', res' := DfsChildren(arr, post, nameOf, k, slate, res');
    assert Collect(arr, post, k, slate) == here + CollectFrom(arr, post, k, slate, 0);
    JoinReports(res, mid, res', here, CollectFrom(arr, post, k, slate, 0), nameOf);
  }

  /** After storing the slate's own word, no key starts above letter 0 after the slate. */
  lemma FreshAfterStore(res: Dict, mid: Dict, here: Matches, slate: string, nameOf: int -> string)
    requires forall i | 0 <= i < |res| :: !IsPrefix(slate, res[i].0)
    requires forall i | 0 <= i < |here| :: here[i].0 == slate
    requires mid == res + Labelled(here, nameOf)
    ensures forall i | 0 <= i < |mid| :: !StartsAbove(mid[i].0, slate, 0)
  {
    forall i | 0 <= i < |mid| ensures !StartsAbove(mid[i].0, slate, 0) {
      if i < |res| {
        assert mid[i] == res[i];
      } else {
        assert mid[i].0 == here[i - |res|].0;
      }
    }
  }

  /** The word of the record followed by the reports of its letters is the record's whole report. */
  lemma JoinReports(res: Dict, mid: Dict, res': Dict, here: Matches, below: Matches, nameOf: int -> string)
    requires mid == res + Labelled(here, nameOf)
    requires res' == mid + Labelled(below, nameOf)
    ensures res' == res + Labelled(here + below, nameOf)
  {
    LabelledAppend(here, below, nameOf);
  }

  /**
   * Lines 134-143: when the end-of-word flag is 1, the posting run is read,
   * labelled and stored under the slate. No key of `res` extends the slate,
   * so the store appends a new entry.
   */
  method StoreWord(arr: seq<int>, post: seq<int>, nameOf: int -> string, k: int, slate: string, res: Dict)
    returns (res': Dict)
    requires WellFormed(arr, post) && HasRecord(arr, k)
    requires forall i | 0 <= i < |res| :: !IsPrefix(slate, res[i].0)
    ensures res' == res + Labelled(HereReport(arr, post, k, slate), nameOf)
  {
    res' := res;
    if Slot(arr, k, EndOfWordIdx) == 1 {
      var names := ReadLabels(arr, post, nameOf, k);
      GetSpec(res', slate);
      res' := Put(res', slate, names);
    }
  }

  /** The letter loop of `_dfs` (lines 147-156) for a record whose leaf flag is not 1. */
  method DfsChildren(arr: seq<int>, post: seq<int>, nameOf: int -> string, k: int, slate: string, res: Dict)
    returns (slate': string, res': Dict)
    requires WellFormed(arr, post) && HasRecord(arr, k)
    requires forall i | 0 <= i < |res| :: !StartsAbove(res[i].0, slate, 0)
    ensures slate' == slate
    ensures res' == res + Labelled(CollectFrom(arr, post, k, slate, 0), nameOf)
    decreases |arr| - NodeSize * k, 1
  {
    slate', res' := slate, res;
    ghost var done: Matches := [];
    var c := 0;
    while c < NumAlphabets
      invariant 0 <= c <= NumAlphabets && slate' == slate
      invariant res' == res + Labelled(done, nameOf)
      invariant done + CollectFrom(arr, post, k, slate, c) == CollectFrom(arr, post, k, slate, 0)
      invariant forall i | 0 <= i < |res'| :: !StartsAbove(res'[i].0, slate, c)
    {
      ghost var before := res';
      ghost var first := SlotReport(arr, post, k, slate, c);
      slate', res' := VisitSlot(arr, post, nameOf, k, slate', c, res');
      AppendStep(res, before, done, first, CollectFrom(arr, post, k, slate, c + 1), CollectFrom(arr, post, k, slate, 0), nameOf);
      done := done + first;
      c := c + 1;
    }
  }

  /** What letter slot `c` of record `k` contributes to `CollectFrom`. */
  function SlotReport(arr: seq<int>, post: seq<int>, k: int, slate: string, c: int): (r: Matches)
    requires WellFormed(arr, post) && HasRecord(arr, k) && 0 <= c < NumAlphabets
    ensures CollectFrom(arr, post, k, slate, c) == r + CollectFrom(arr, post, k, slate, c + 1)
  {
    var off := Slot(arr, k, c);
    if off == 0 then [] else Collect(arr, post, RecordOfOffset(off), slate + [IntToChar(c)])
  }

  /**
   * One pass of the letter loop of `_dfs` (lines 147-156): a zero slot is
   * skipped; otherwise the letter is pushed, the child record is walked and
   * the letter is popped. The reported words all carry letter `c` after the
   * slate, so none of them starts above `c + 1`.
   */
  method VisitSlot(arr: seq<int>, post: seq<int>, nameOf: int -> string, k: int, slate: string, c: int, res: Dict)
    returns (slate': string, res': Dict)
    requires WellFormed(arr, post) && HasRecord(arr, k) && 0 <= c < NumAlphabets
    requires forall i | 0 <= i < |res| :: !StartsAbove(res[i].0, slate, c)
    ensures slate' == slate
    ensures res' == res + Labelled(SlotReport(arr, post, k, slate, c), nameOf)
    ensures forall i | 0 <= i < |res'| :: !StartsAbove(res'[i].0, slate, c + 1)
    decreases |arr| - NodeSize * k, 0
  {
    slate', res' := slate, res;
    var childOffset := Slot(arr, k, c);
    if childOffset == 0 {
      return;
    }
    var ch := IntToChar(c);
    slate' := slate' + [ch];
    forall i | 0 <= i < |res'| ensures !IsPrefix(slate', res'[i].0) {
      PrefixSnoc(slate, ch, res'[i].0);
    }
    var child := RecordOfOffset(childOffset);
    slate', res' := Dfs(arr, post, nameOf, child, slate', res');
    forall i | |res| <= i < |res'| ensures !StartsAbove(res'[i].0, slate, c + 1) {
      PrefixSnoc(slate, ch, res'[i].0);
    }
    slate' := slate'[..|slate'| - 1];
  }

  /** The bookkeeping of one visited child in `Dfs`: its report joins what is done so far. */
  lemma AppendStep(res: Dict, res': Dict, done: Matches, first: Matches, rest: Matches, whole: Matches,
                   nameOf: int -> string)
    requires res' == res + Labelled(done, nameOf)
    requires done + (first + rest) == whole
    ensures res' + Labelled(first, nameOf) == res + Labelled(done + first, nameOf)
    ensures (done + first) + rest == whole
  {
    LabelledAppend(done, first, nameOf);
  }

  /**
   * `search(prefix)` (lines 158-175): walk the prefix down from the root
   * record, returning the empty result at the first zero slot, then run the
   * depth-first walk from the record reached with the prefix as the slate.
   */
  method Search(arr: seq<int>, post: seq<int>, nameOf: int -> string, prefix: string) returns (res: Dict)
    requires WellFormed(arr, post) && IsWord(prefix)
    ensures res == Labelled(SearchIds(arr, post, prefix), nameOf)
    ensures Navigate(arr, 0, prefix).None? ==> res == []
  {
    var k := 0;
    var i := 0;
    while i < |prefix|
      invariant 0 <= i <= |prefix| && HasRecord(arr, k)
      invariant Navigate(arr, 0, prefix) == Navigate(arr, k, prefix[i..])
    {
      assert prefix[i..][0] == prefix[i] && prefix[i..][1..] == prefix[i + 1..];
      var offset := Slot(arr, k, CharToInt(prefix[i]));
      if offset == 0 {
        return [];
      }
      k := RecordOfOffset(offset);
      i := i + 1;
    }
    var slate;
    slate, res := Dfs(arr, post, nameOf, k, prefix, []);
  }
}

=== FILE: serializer.dfy ===
/**
 * `Trie.serialize` without the file writes: one breadth-first pass that lays
 * the trie out as 32-integer records (root first) and collects the id lists
 * into a flat posting array. Record k holds the k-th node of the level-order
 * traversal `LevelOrder`, which visits each node's children in key insertion
 * order.
 *
 * Line numbers in the comments below refer to `enron_search.py`.
 */
module Serializer {
  import opened Alphabet
  import opened Trie
  import opened Layout

  function Zeros(n: nat): (z: seq<int>)
    ensures |z| == n && forall i | 0 <= i < n :: z[i] == 0
  {
    seq(n, _ => 0)
  }

  /** The children of `n` listed in the order of `keys`. */
  ghost function ChildSeq(n: Node, keys: seq<char>): (r: seq<Node>)
    requires forall j | 0 <= j < |keys| :: keys[j] in n.children
    ensures |r| == |keys| && forall j | 0 <= j < |keys| :: r[j] == n.children[keys[j]]
  {
    seq(|keys|, j requires 0 <= j < |keys| => n.children[keys[j]])
  }

  ghost function SumCount(ns: seq<Node>): nat {
    if |ns| == 0 then 0 else Count(ns[0]) + SumCount(ns[1..])
  }

  ghost function SumIds(ns: seq<Node>): nat {
    if |ns| == 0 then 0 else TotalIds(ns[0]) + SumIds(ns[1..])
  }

  lemma {:induction false} SumsAppend(a: seq<Node>, b: seq<Node>)
    ensures SumCount(a + b) == SumCount(a) + SumCount(b)
    ensures SumIds(a + b) == SumIds(a) + SumIds(b)
    decreases |a|
  {
    if |a| == 0 {
      assert a + b == b;
    } else {
      assert (a + b)[1..] == a[1..] + b;
      SumsAppend(a[1..], b);
    }
  }

  /** Summing over the children in key order gives the per-node totals. */
  lemma {:induction false} SumsOfChildren(n: Node, keys: seq<char>)
    requires forall j | 0 <= j < |keys| :: keys[j] in n.children
    ensures SumCount(ChildSeq(n, keys)) == CountFrom(n, keys)
    ensures SumIds(ChildSeq(n, keys)) == IdsFrom(n, keys)
    decreases |keys|
  {
    if |keys| > 0 {
      assert ChildSeq(n, keys)[1..] == ChildSeq(n, keys[1..]);
      SumsOfChildren(n, keys[1..]);
    }
  }

  ghost predicate ZeroRecord(arr: seq<int>, k: int)
    requires HasRecord(arr, k)
  {
    forall s | 0 <= s < NodeSize :: Slot(arr, k, s) == 0
  }

  /**
   * Letter slot `c` of record `k` is right with respect to the node of each
   * record (`nodes`): 0 when there is no child for that letter, otherwise a
   * forward offset to the record of that child.
   */
  ghost predicate ChildLinked(arr: seq<int>, nodes: seq<Node>, k: int, c: int)
    requires |arr| == NodeSize * |nodes| && 0 <= k < |nodes| && 0 <= c < NumAlphabets
  {
    if IntToChar(c) in nodes[k].children then
      IsChildOffset(arr, k, Slot(arr, k, c))
      && nodes[RecordOfOffset(Slot(arr, k, c))] == nodes[k].children[IntToChar(c)]
    else
      Slot(arr, k, c) == 0
  }

  /** Record `k` is finished: header and letter slots are right for its node. */
  ghost predicate LocalOK(arr: seq<int>, post: seq<int>, nodes: seq<Node>, k: int)
    requires |arr| == NodeSize * |nodes| && 0 <= k < |nodes|
  {
    HeaderOK(arr, post, k, nodes[k]) && forall c | 0 <= c < NumAlphabets :: ChildLinked(arr, nodes, k, c)
  }

  /** A finished record stays finished while later records are written and the posting array grows. */
  lemma LocalOKFrame(arr: seq<int>, post: seq<int>, nodes: seq<Node>,
                     arr': seq<int>, post': seq<int>, nodes': seq<Node>, k: int)
    requires |arr| == NodeSize * |nodes| && |arr'| == NodeSize * |nodes'|
    requires 0 <= k < |nodes| <= |nodes'| && nodes'[..|nodes|] == nodes
    requires IsPrefix(post, post')
    requires forall s | 0 <= s < NodeSize :: Slot(arr', k, s) == Slot(arr, k, s)
    requires LocalOK(arr, post, nodes, k)
    ensures LocalOK(arr', post', nodes', k)
  {
    assert nodes'[k] == nodes[k];
    if nodes[k].isEnd {
      var off, size := Slot(arr, k, PostOffsetIdx), Slot(arr, k, PostSizeIdx);
      assert HeaderOK(arr, post, k, nodes[k]);
      assert RunInRange(post, off, size);
      var a := off / ItemSize;
      assert forall i | 0 <= i < |post| :: post'[i] == post[i] by {
        assert post'[..|post|] == post;
      }
      assert post'[a .. a + size] == post[a .. a + size];
    }
    forall c | 0 <= c < NumAlphabets ensures ChildLinked(arr', nodes', k, c) {
      assert ChildLinked(arr, nodes, k, c);
      if IntToChar(c) in nodes[k].children {
        assert nodes'[RecordOfOffset(Slot(arr, k, c))] == nodes[RecordOfOffset(Slot(arr, k, c))];
      }
    }
  }

  /** Once every record is finished, every record is the serialization of its node's subtree. */
  lemma {:induction false} LocalToEncodes(arr: seq<int>, post: seq<int>, nodes: seq<Node>, k: int)
    requires |arr| == NodeSize * |nodes| && 0 <= k < |nodes|
    requires forall j | 0 <= j < |nodes| :: LocalOK(arr, post, nodes, j)
    ensures Encodes(arr, post, k, nodes[k])
    decreases nodes[k]
  {
    assert LocalOK(arr, post, nodes, k);
    var n := nodes[k];
    forall c | 0 <= c < NumAlphabets
      ensures if IntToChar(c) in n.children then
                IsChildOffset(arr, k, Slot(arr, k, c))
                && Encodes(arr, post, RecordOfOffset(Slot(arr, k, c)), n.children[IntToChar(c)])
              else
                Slot(arr, k, c) == 0
    {
      assert ChildLinked(arr, nodes, k, c);
      if IntToChar(c) in n.children {
        LocalToEncodes(arr, post, nodes, RecordOfOffset(Slot(arr, k, c)));
      }
    }
  }

  /** Finished records make a well-formed pair of files. */
  lemma LocalToWellFormed(arr: seq<int>, post: seq<int>, nodes: seq<Node>)
    requires |arr| == NodeSize * |nodes| && 0 < |nodes|
    requires forall j | 0 <= j < |nodes| :: LocalOK(arr, post, nodes, j)
    ensures WellFormed(arr, post)
  {
    forall k, c | HasRecord(arr, k) && 0 <= c < NumAlphabets
      ensures Slot(arr, k, c) == 0 || IsChildOffset(arr, k, Slot(arr, k, c))
    {
      assert LocalOK(arr, post, nodes, k);
      assert ChildLinked(arr, nodes, k, c);
    }
    forall k | HasRecord(arr, k) && Slot(arr, k, EndOfWordIdx) == 1
      ensures RunInRange(post, Slot(arr, k, PostOffsetIdx), Slot(arr, k, PostSizeIdx))
    {
      assert LocalOK(arr, post, nodes, k);
    }
  }

  /**
   * What the header half of one step (lines 90-101) does to record `k`:
   * its header now describes `parent`, the posting array grows by the
   * parent's ids, and no cell outside slots 26..29 of the record changes.
   */
  ghost predicate HeaderWritten(arr: seq<int>, post: seq<int>, arr': seq<int>, post': seq<int>, k: int, parent: Node) {
    && |arr'| == |arr| && 0 <= k && NodeSize * k + NodeSize <= |arr|
    && post' == post + parent.ids
    && HeaderOK(arr', post', k, parent)
    && forall i | 0 <= i < |arr| && !(NodeSize * k + EndOfWordIdx <= i < NodeSize * k + 30) :: arr'[i] == arr[i]
  }

  /**
   * What the children half of one step (lines 102-113) does: one zeroed
   * record per child is appended, in key order; the parent's letter slots
   * point at those records (and are 0 for absent letters); nothing else in
   * the old array changes; and the queue gains the children with their
   * record indices.
   */
  ghost predicate ChildrenWritten(arr: seq<int>, queue: seq<(Node, int)>, arr': seq<int>, queue': seq<(Node, int)>,
                                  k: int, parent: Node) {
    FirstChildrenWritten(arr, queue, arr', queue', k, parent, |parent.order|)
  }

  /** The loop of lines 102-113 after its first `n` iterations: the same as above for the first `n` keys. */
  ghost predicate FirstChildrenWritten(arr: seq<int>, queue: seq<(Node, int)>, arr': seq<int>, queue': seq<(Node, int)>,
                                       k: int, parent: Node, n: int) {
    && 0 <= n <= |parent.order|
    && Distinct(parent.order)
    && HasRecord(arr', k)
    && (forall j | 0 <= j < |parent.order| :: IsLetter(parent.order[j]) && parent.order[j] in parent.children)
    && SlotsWritten(arr, arr', k, parent.order, n)
    && ChildrenQueued(|arr|, queue, queue', parent, n)
  }

  /**
   * The array half: one zeroed record appended per key so far, the letter
   * slot of each such key pointing at its record, other letter slots 0 and
   * no other old cell changed.
   */
  ghost predicate SlotsWritten(arr: seq<int>, arr': seq<int>, k: int, order: seq<char>, n: int)
    requires 0 <= n <= |order| && HasRecord(arr', k)
    requires forall j | 0 <= j < |order| :: IsLetter(order[j])
  {
    && |arr'| == |arr| + NodeSize * n
    && (forall i | 0 <= i < |arr| && !(NodeSize * k <= i < NodeSize * k + NumAlphabets) :: arr'[i] == arr[i])
    && (forall i | |arr| <= i < |arr'| :: arr'[i] == 0)
    && (forall j | 0 <= j < n :: Slot(arr', k, CharToInt(order[j])) == ByteOffset(|arr| + NodeSize * j))
    && (forall c | 0 <= c < NumAlphabets && IntToChar(c) !in order[..n] :: Slot(arr', k, c) == 0)
  }

  /** The queue half: the first `n` children enqueued in key order, the j-th with record index `base + 32 * j`. */
  ghost predicate ChildrenQueued(base: int, queue: seq<(Node, int)>, queue': seq<(Node, int)>, parent: Node, n: int)
    requires 0 <= n <= |parent.order|
    requires forall j | 0 <= j < |parent.order| :: parent.order[j] in parent.children
  {
    && |queue'| == |queue| + n && queue'[..|queue|] == queue
    && (forall j | 0 <= j < n :: queue'[|queue| + j] == (parent.children[parent.order[j]], base + NodeSize * j))
  }

  /**
   * Lines 90-101 for the node of record `k` (integer index `parentIdx`): set
   * the end-of-word flag and append the id list as a new posting run, and set
   * the leaf flag when the node has no children. Record `k` starts zeroed.
   */
  method EmitHeader(arr: seq<int>, post: seq<int>, parent: Node, parentIdx: int, ghost k: int)
    returns (arr': seq<int>, post': seq<int>)
    requires HasRecord(arr, k) && parentIdx == NodeSize * k && ZeroRecord(arr, k)
    requires !parent.isEnd ==> parent.ids == []
    ensures HeaderWritten(arr, post, arr', post', k, parent)
  {
    assert Slot(arr, k, EndOfWordIdx) == 0 && Slot(arr, k, IsLeafIdx) == 0;
    arr', post' := arr, post;
    if parent.isEnd {
      arr' := arr'[parentIdx + EndOfWordIdx := 1];
      var emailIdIdx := |post'|;
      post' := post' + parent.ids;
      arr' := arr'[parentIdx + PostOffsetIdx := ByteOffset(emailIdIdx)];
      arr' := arr'[parentIdx + PostSizeIdx := |parent.ids|];
    }
    if |parent.children| == 0 {
      arr' := arr'[parentIdx + IsLeafIdx := 1];
    }
    HeaderCells(arr, post, arr', post', k, parent);
  }

  /** The cell-level effect of lines 90-101 on a zeroed record gives `HeaderWritten`. */
  lemma HeaderCells(arr: seq<int>, post: seq<int>, arr': seq<int>, post': seq<int>, k: int, parent: Node)
    requires HasRecord(arr, k) && ZeroRecord(arr, k) && |arr'| == |arr|
    requires !parent.isEnd ==> parent.ids == []
    requires post' == post + parent.ids
    requires arr'[NodeSize * k + EndOfWordIdx] == (if parent.isEnd then 1 else 0)
    requires arr'[NodeSize * k + IsLeafIdx] == (if |parent.children| == 0 then 1 else 0)
    requires parent.isEnd ==> arr'[NodeSize * k + PostOffsetIdx] == ByteOffset(|post|)
                              && arr'[NodeSize * k + PostSizeIdx] == |parent.ids|
    requires !parent.isEnd ==> arr'[NodeSize * k + PostOffsetIdx] == arr[NodeSize * k + PostOffsetIdx]
                               && arr'[NodeSize * k + PostSizeIdx] == arr[NodeSize * k + PostSizeIdx]
    requires forall i | 0 <= i < |arr| && !(NodeSize * k + EndOfWordIdx <= i < NodeSize * k + 30) :: arr'[i] == arr[i]
    ensures HeaderWritten(arr, post, arr', post', k, parent)
  {
    assert Slot(arr, k, 30) == 0 && Slot(arr, k, 31) == 0;
    assert Slot(arr, k, PostOffsetIdx) == 0 && Slot(arr, k, PostSizeIdx) == 0;
    assert Slot(arr', k, 30) == 0 && Slot(arr', k, 31) == 0;
    if parent.isEnd {
      assert RunInRange(post', Slot(arr', k, PostOffsetIdx), Slot(arr', k, PostSizeIdx));
      assert RecordRun(arr', post', k) == post'[|post| .. |post| + |parent.ids|];
    }
  }

  /**
   * Lines 102-113: for each child, in key insertion order, append a zeroed
   * record, point the parent's letter slot at it and enqueue the child with
   * the record's integer index. The j-th child gets the j-th fresh record.
   */
  method EmitChildren(arr: seq<int>, queue: seq<(Node, int)>, parent: Node, parentIdx: int, ghost k: int)
    returns (arr': seq<int>, queue': seq<(Node, int)>)
    requires HasRecord(arr, k) && parentIdx == NodeSize * k && |arr| % NodeSize == 0
    requires forall c | 0 <= c < NumAlphabets :: Slot(arr, k, c) == 0
    requires Distinct(parent.order)
    requires forall j | 0 <= j < |parent.order| :: IsLetter(parent.order[j]) && parent.order[j] in parent.children
    ensures ChildrenWritten(arr, queue, arr', queue', k, parent)
  {
    arr', queue' := arr, queue;
    assert parent.order[..0] == [];
    var i := 0;
    while i < |parent.order|
      invariant FirstChildrenWritten(arr, queue, arr', queue', k, parent, i)
      decreases |parent.order| - i
    {
      var ch := parent.order[i];
      var child := parent.children[ch];
      var childIdx := |arr'|;
      ghost var a, q := arr', queue';
      arr' := arr' + Zeros(NodeSize);
      var parentChildIdx := parentIdx + CharToInt(ch);
      arr' := arr'[parentChildIdx := ByteOffset(childIdx)];
      queue' := queue' + [(child, childIdx)];
      AppendChild(arr, queue, a, q, k, parent, i);
      i := i + 1;
    }
  }

  /** One iteration of the children loop keeps `FirstChildrenWritten` with one more key. */
  lemma AppendChild(arr: seq<int>, queue: seq<(Node, int)>, a: seq<int>, q: seq<(Node, int)>, k: int, parent: Node, i: int)
    requires HasRecord(arr, k) && i < |parent.order|
    requires FirstChildrenWritten(arr, queue, a, q, k, parent, i)
    ensures FirstChildrenWritten(arr, queue,
              (a + Zeros(NodeSize))[NodeSize * k + CharToInt(parent.order[i]) := ByteOffset(|a|)],
              q + [(parent.children[parent.order[i]], |a|)], k, parent, i + 1)
  {
    AppendSlot(arr, a, k, parent.order, i);
    AppendQueued(|arr|, queue, q, parent, i);
  }

  /** The array half of one iteration of the children loop. */
  lemma AppendSlot(arr: seq<int>, a: seq<int>, k: int, order: seq<char>, i: int)
    requires HasRecord(arr, k) && 0 <= i < |order| && HasRecord(a, k) && Distinct(order)
    requires forall j | 0 <= j < |order| :: IsLetter(order[j])
    requires SlotsWritten(arr, a, k, order, i)
    ensures HasRecord((a + Zeros(NodeSize))[NodeSize * k + CharToInt(order[i]) := ByteOffset(|a|)], k)
    ensures SlotsWritten(arr, (a + Zeros(NodeSize))[NodeSize * k + CharToInt(order[i]) := ByteOffset(|a|)], k, order, i + 1)
  {
    var ch := order[i];
    var a' := (a + Zeros(NodeSize))[NodeSize * k + CharToInt(ch) := ByteOffset(|a|)];
    forall x | 0 <= x < |arr| && !(NodeSize * k <= x < NodeSize * k + NumAlphabets) ensures a'[x] == arr[x] {
      assert a'[x] == a[x];
    }
    forall x | |arr| <= x < |a'| ensures a'[x] == 0 {
      if x < |a| {
        assert a'[x] == a[x];
      }
    }
    forall j | 0 <= j < i + 1
      ensures Slot(a', k, CharToInt(order[j])) == ByteOffset(|arr| + NodeSize * j)
    {
      if j < i {
        assert order[j] != ch;
        assert CharToInt(order[j]) != CharToInt(ch);
      }
    }
    forall c | 0 <= c < NumAlphabets && IntToChar(c) !in order[..i + 1]
      ensures Slot(a', k, c) == 0
    {
      assert order[..i + 1] == order[..i] + [ch];
      assert c != CharToInt(ch);
    }
  }

  /** The queue half of one iteration of the children loop. */
  lemma AppendQueued(base: int, queue: seq<(Node, int)>, q: seq<(Node, int)>, parent: Node, i: int)
    requires 0 <= i < |parent.order|
    requires forall j | 0 <= j < |parent.order| :: parent.order[j] in parent.children
    requires ChildrenQueued(base, queue, q, parent, i)
    requires |q| - |queue| == i
    ensures ChildrenQueued(base, queue, q + [(parent.children[parent.order[i]], base + NodeSize * i)], parent, i + 1)
  {
    var q' := q + [(parent.children[parent.order[i]], base + NodeSize * i)];
    forall j | 0 <= j < i + 1
      ensures q'[|queue| + j] == (parent.children[parent.order[j]], base + NodeSize * j)
    {
      if j < i {
        assert q'[|queue| + j] == q[|queue| + j];
      }
    }
    assert q'[..|queue|] == q[..|queue|];
  }

  /** The header of a record depends only on its slots 26..31. */
  lemma HeaderFrame(arr: seq<int>, arr': seq<int>, post: seq<int>, k: int, n: Node)
    requires HasRecord(arr, k) && HasRecord(arr', k)
    requires forall s | EndOfWordIdx <= s < NodeSize :: Slot(arr', k, s) == Slot(arr, k, s)
    requires HeaderOK(arr, post, k, n)
    ensures HeaderOK(arr', post, k, n)
  {
    assert Slot(arr', k, PostOffsetIdx) == Slot(arr, k, PostOffsetIdx);
    assert Slot(arr', k, PostSizeIdx) == Slot(arr, k, PostSizeIdx);
    assert Slot(arr', k, 30) == Slot(arr, k, 30) && Slot(arr', k, 31) == Slot(arr, k, 31);
  }

  /** Every node recorded so far roots a valid subtrie. */
  ghost predicate AllValid(nodes: seq<Node>) {
    forall k | 0 <= k < |nodes| :: Valid(nodes[k])
  }

  /** Records `0..h-1` are finished. */
  ghost predicate Finished(arr: seq<int>, post: seq<int>, nodes: seq<Node>, h: int)
    requires |arr| == NodeSize * |nodes| && 0 <= h <= |nodes|
  {
    forall k | 0 <= k < h :: LocalOK(arr, post, nodes, k)
  }

  /** Records `h..` are still zeroed. */
  ghost predicate BlankFrom(arr: seq<int>, nodes: seq<Node>, h: int)
    requires |arr| == NodeSize * |nodes| && 0 <= h
  {
    forall k | h <= k < |nodes| :: ZeroRecord(arr, k)
  }

  /** Records before `h` are finished and untouched by the step that writes record `h`. */
  lemma EarlierStayFinished(arr0: seq<int>, post0: seq<int>, nodes0: seq<Node>,
                            arr: seq<int>, post: seq<int>, nodes: seq<Node>, h: int)
    requires |arr0| == NodeSize * |nodes0| && |arr| == NodeSize * |nodes| && 0 <= h < |nodes0| <= |nodes|
    requires nodes[..|nodes0|] == nodes0 && IsPrefix(post0, post)
    requires Finished(arr0, post0, nodes0, h)
    requires forall i | 0 <= i < NodeSize * h :: arr[i] == arr0[i]
    requires LocalOK(arr, post, nodes, h)
    ensures Finished(arr, post, nodes, h + 1)
  {
    forall k | 0 <= k < h ensures LocalOK(arr, post, nodes, k) {
      forall s | 0 <= s < NodeSize ensures Slot(arr, k, s) == Slot(arr0, k, s) {
        assert NodeSize * k + s < NodeSize * h;
      }
      assert LocalOK(arr0, post0, nodes0, k);
      LocalOKFrame(arr0, post0, nodes0, arr, post, nodes, k);
    }
  }

  /** Records after `h` that existed before the step are still blank. */
  lemma LaterStayBlank(arr0: seq<int>, nodes0: seq<Node>, arr: seq<int>, nodes: seq<Node>, h: int)
    requires |arr0| == NodeSize * |nodes0| && |arr| == NodeSize * |nodes| && 0 <= h < |nodes0| <= |nodes|
    requires BlankFrom(arr0, nodes0, h)
    requires forall i | NodeSize * h + NodeSize <= i < |arr0| :: arr[i] == arr0[i]
    requires forall i | |arr0| <= i < |arr| :: arr[i] == 0
    ensures BlankFrom(arr, nodes, h + 1)
  {
    forall k | h < k < |nodes| ensures ZeroRecord(arr, k) {
      forall s | 0 <= s < NodeSize ensures Slot(arr, k, s) == 0 {
        if k < |nodes0| {
          assert ZeroRecord(arr0, k);
          assert Slot(arr0, k, s) == 0;
        }
      }
    }
  }

  /** The byte offset of record `m` addresses record `m`. */
  lemma RecordOffsetRoundTrip(m: int)
    requires 0 <= m
    ensures ByteOffset(NodeSize * m) % (ItemSize * NodeSize) == 0
    ensures RecordOfOffset(ByteOffset(NodeSize * m)) == m
  {
    assert ByteOffset(NodeSize * m) == (ItemSize * NodeSize) * m;
  }

  /** After its children are allocated, the letter slots of record `h` link each child's record. */
  lemma ChildrenLinked(arr: seq<int>, nodes0: seq<Node>, parent: Node, h: int, base: int)
    requires |arr| == NodeSize * (|nodes0| + |parent.order|) && base == NodeSize * |nodes0|
    requires 0 <= h < |nodes0|
    requires forall k :: k in parent.order <==> k in parent.children
    requires forall j | 0 <= j < |parent.order| :: IsLetter(parent.order[j])
    requires forall j | 0 <= j < |parent.order| ::
               Slot(arr, h, CharToInt(parent.order[j])) == ByteOffset(base + NodeSize * j)
    requires forall c | 0 <= c < NumAlphabets && IntToChar(c) !in parent.order :: Slot(arr, h, c) == 0
    requires parent == nodes0[h]
    ensures forall c | 0 <= c < NumAlphabets :: ChildLinked(arr, nodes0 + ChildSeq(parent, parent.order), h, c)
  {
    var kids := ChildSeq(parent, parent.order);
    var nodes := nodes0 + kids;
    forall c | 0 <= c < NumAlphabets ensures ChildLinked(arr, nodes, h, c) {
      var ch := IntToChar(c);
      if ch in parent.order {
        var j :| 0 <= j < |parent.order| && parent.order[j] == ch;
        var m := |nodes0| + j;
        assert base + NodeSize * j == NodeSize * m;
        RecordOffsetRoundTrip(m);
        assert Slot(arr, h, c) == ByteOffset(NodeSize * m);
        assert nodes[m] == kids[j];
      }
    }
  }

  /** The queue the loop holds once records `0..h-1` are finished: every later record with its node. */
  ghost function QueueOf(nodes: seq<Node>, h: int): (q: seq<(Node, int)>)
    requires 0 <= h <= |nodes|
    ensures |q| == |nodes| - h
  {
    seq(|nodes| - h, j requires 0 <= j < |nodes| - h => (nodes[h + j], NodeSize * (h + j)))
  }

  /** Dequeuing record `h` and enqueuing the children's fresh records keeps the queue in record order. */
  lemma QueueStep(queue0: seq<(Node, int)>, queue: seq<(Node, int)>, nodes0: seq<Node>, parent: Node, h: int, base: int)
    requires 0 <= h < |nodes0| && base == NodeSize * |nodes0|
    requires forall j | 0 <= j < |parent.order| :: parent.order[j] in parent.children
    requires queue0 == QueueOf(nodes0, h)[1..]
    requires |queue| == |queue0| + |parent.order| && queue[..|queue0|] == queue0
    requires forall j | 0 <= j < |parent.order| ::
               queue[|queue0| + j] == (parent.children[parent.order[j]], base + NodeSize * j)
    ensures queue == QueueOf(nodes0 + ChildSeq(parent, parent.order), h + 1)
  {
    var kids := ChildSeq(parent, parent.order);
    var nodes := nodes0 + kids;
    var q := QueueOf(nodes, h + 1);
    var n1 := |queue0|;
    forall j | 0 <= j < |queue| ensures queue[j] == q[j] {
      if j < n1 {
        assert queue[j] == queue0[j] == QueueOf(nodes0, h)[j + 1];
      } else {
        var t := j - n1;
        assert queue[n1 + t] == (parent.children[parent.order[t]], base + NodeSize * t);
        assert nodes[|nodes0| + t] == kids[t];
      }
    }
  }

  /** Node and posting totals still add up after record `h` is finished. */
  lemma TotalsStep(root: Node, nodes0: seq<Node>, parent: Node, h: int, postLen0: int, postLen: int)
    requires 0 <= h < |nodes0| && nodes0[h] == parent
    requires forall j | 0 <= j < |parent.order| :: parent.order[j] in parent.children
    requires Count(root) == h + SumCount(nodes0[h..])
    requires TotalIds(root) == postLen0 + SumIds(nodes0[h..])
    requires postLen == postLen0 + |parent.ids|
    ensures Count(root) == h + 1 + SumCount((nodes0 + ChildSeq(parent, parent.order))[h + 1..])
    ensures TotalIds(root) == postLen + SumIds((nodes0 + ChildSeq(parent, parent.order))[h + 1..])
  {
    var kids := ChildSeq(parent, parent.order);
    assert nodes0[h..][1..] == nodes0[h + 1..];
    assert (nodes0 + kids)[h + 1..] == nodes0[h + 1..] + kids;
    SumsAppend(nodes0[h + 1..], kids);
    SumsOfChildren(parent, parent.order);
  }

  /** Children of a valid node are valid. */
  lemma ValidStep(nodes0: seq<Node>, parent: Node)
    requires AllValid(nodes0)
    requires Valid(parent)
    ensures AllValid(nodes0 + ChildSeq(parent, parent.order))
  {
    var kids := ChildSeq(parent, parent.order);
    forall k | 0 <= k < |nodes0 + kids| ensures Valid((nodes0 + kids)[k]) {
      if k < |nodes0| {
        assert Valid(nodes0[k]);
      } else {
        assert (nodes0 + kids)[k] == parent.children[parent.order[k - |nodes0|]];
      }
    }
  }

  /**
   * The level-order traversal of the nodes of `q` and their descendants, run
   * as a queue: take the head, then append its children in key order. The
   * traversal of `[root]` is the order lines 85-113 visit the trie in.
   */
  ghost function LevelOrder(q: seq<Node>): (r: seq<Node>)
    requires AllValid(q)
    ensures |r| == SumCount(q)
    decreases SumCount(q)
  {
    if |q| == 0 then []
    else
      var head := q[0];
      var rest := q[1..] + ChildSeq(head, head.order);
      assert Valid(head);
      assert q == [head] + q[1..];
      SumsAppend([head], q[1..]);
      SumsAppend(q[1..], ChildSeq(head, head.order));
      SumsOfChildren(head, head.order);
      assert AllValid(q[1..]) by {
        var tail := q[1..];
        forall k | 0 <= k < |tail| ensures Valid(tail[k]) {
          assert tail[k] == q[k + 1];
        }
      }
      ValidStep(q[1..], head);
      [head] + LevelOrder(rest)
  }

  /** The level order of the whole trie under `root`: one entry per node, root first. */
  ghost function LevelOrderOf(root: Node): (r: seq<Node>)
    requires Valid(root)
    ensures |r| == Count(root) && r[0] == root
  {
    assert AllValid([root]) && [root][1..] == [];
    assert SumCount([root]) == Count(root) + SumCount([]);
    LevelOrder([root])
  }

  /** Records `0..h-1` hold the first `h` nodes of the level order, and the rest are still to come in order. */
  ghost predicate LevelOrderSoFar(root: Node, nodes: seq<Node>, h: int) {
    && 0 <= h <= |nodes|
    && AllValid([root]) && AllValid(nodes[h..])
    && nodes[..h] + LevelOrder(nodes[h..]) == LevelOrder([root])
  }

  /** Dequeuing node `h` and enqueuing its children moves one node from the pending traversal to the done part. */
  lemma LevelOrderStep(root: Node, nodes: seq<Node>, h: int)
    requires 0 <= h < |nodes| && AllValid(nodes) && LevelOrderSoFar(root, nodes, h)
    ensures LevelOrderSoFar(root, nodes + ChildSeq(nodes[h], nodes[h].order), h + 1)
  {
    var parent := nodes[h];
    var kids := ChildSeq(parent, parent.order);
    var nodes' := nodes + kids;
    ValidStep(nodes, parent);
    assert nodes[h..][1..] + kids == nodes'[h + 1..];
    assert nodes'[..h + 1] == nodes[..h] + [parent];
    var pending := nodes'[h + 1..];
    forall k | 0 <= k < |pending| ensures Valid(pending[k]) {
      assert pending[k] == nodes'[h + 1 + k];
    }
    assert AllValid(pending);
    assert LevelOrder(nodes[h..]) == [parent] + LevelOrder(nodes'[h + 1..]);
  }

  /** With the queue empty, record `k` encodes the k-th node of the level order. */
  lemma LevelOrderDone(root: Node, arr: seq<int>, post: seq<int>, nodes: seq<Node>, h: int)
    requires BfsInv(root, arr, post, [], nodes, h) && LevelOrderSoFar(root, nodes, h)
    ensures |LevelOrder([root])| == Count(root)
    ensures forall k | 0 <= k < Count(root) :: Encodes(arr, post, k, LevelOrder([root])[k])
  {
    assert h == |nodes| && nodes[h..] == [] && nodes[..h] == nodes;
    assert LevelOrder(nodes[h..]) == [];
    assert nodes == LevelOrder([root]);
    assert Finished(arr, post, nodes, |nodes|);
    forall k | 0 <= k < Count(root) ensures Encodes(arr, post, k, LevelOrder([root])[k]) {
      LocalToEncodes(arr, post, nodes, k);
    }
  }

  /**
   * The loop invariant of the breadth-first pass: `nodes[k]` is the node laid
   * out in record `k`; records `0..h-1` are finished, the rest are blank and
   * queued in record order; the counts of records and postings still to come
   * add up to the totals of the trie.
   */
  ghost predicate BfsInv(root: Node, arr: seq<int>, post: seq<int>, queue: seq<(Node, int)>, nodes: seq<Node>, h: int) {
    && 0 <= h && h + |queue| == |nodes| && |arr| == NodeSize * |nodes|
    && 0 < |nodes| && nodes[0] == root
    && queue == QueueOf(nodes, h)
    && BlankFrom(arr, nodes, h)
    && Finished(arr, post, nodes, h)
    && AllValid(nodes)
    && Count(root) == h + SumCount(nodes[h..])
    && TotalIds(root) == |post| + SumIds(nodes[h..])
  }

  /** After step `h`, record `h` itself describes `nodes0[h]` locally. */
  lemma StepLocal(arr0: seq<int>, post0: seq<int>, nodes0: seq<Node>, h: int,
                  arr1: seq<int>, arr: seq<int>, post: seq<int>, queue0: seq<(Node, int)>, queue: seq<(Node, int)>)
    requires 0 <= h < |nodes0| && |arr0| == NodeSize * |nodes0| && Valid(nodes0[h])
    requires HeaderWritten(arr0, post0, arr1, post, h, nodes0[h])
    requires ChildrenWritten(arr1, queue0, arr, queue, h, nodes0[h])
    ensures LocalOK(arr, post, nodes0 + ChildSeq(nodes0[h], nodes0[h].order), h)
  {
    var parent := nodes0[h];
    HeaderFrame(arr1, arr, post, h, parent);
    ChildrenLinked(arr, nodes0, parent, h, |arr1|);
  }

  /** Records before `h` are untouched by step `h`, so they stay finished. */
  lemma StepFinished(arr0: seq<int>, post0: seq<int>, nodes0: seq<Node>, h: int,
                     arr1: seq<int>, arr: seq<int>, post: seq<int>, queue0: seq<(Node, int)>, queue: seq<(Node, int)>)
    requires 0 <= h < |nodes0| && |arr0| == NodeSize * |nodes0|
    requires Finished(arr0, post0, nodes0, h)
    requires HeaderWritten(arr0, post0, arr1, post, h, nodes0[h])
    requires ChildrenWritten(arr1, queue0, arr, queue, h, nodes0[h])
    requires LocalOK(arr, post, nodes0 + ChildSeq(nodes0[h], nodes0[h].order), h)
    ensures Finished(arr, post, nodes0 + ChildSeq(nodes0[h], nodes0[h].order), h + 1)
  {
    var nodes := nodes0 + ChildSeq(nodes0[h], nodes0[h].order);
    assert nodes[..|nodes0|] == nodes0;
    assert post[..|post0|] == post0;
    forall i | 0 <= i < NodeSize * h ensures arr[i] == arr0[i] {
      assert arr1[i] == arr0[i];
    }
    EarlierStayFinished(arr0, post0, nodes0, arr, post, nodes, h);
  }

  /** The queue after step `h` is the one the invariant expects for `h + 1`. */
  lemma StepQueue(nodes0: seq<Node>, h: int, arr1: seq<int>, arr: seq<int>, queue0: seq<(Node, int)>, queue: seq<(Node, int)>)
    requires 0 <= h < |nodes0| && |arr1| == NodeSize * |nodes0|
    requires queue0 == QueueOf(nodes0, h)[1..]
    requires ChildrenWritten(arr1, queue0, arr, queue, h, nodes0[h])
    ensures queue == QueueOf(nodes0 + ChildSeq(nodes0[h], nodes0[h].order), h + 1)
  {
    QueueStep(queue0, queue, nodes0, nodes0[h], h, |arr1|);
  }

  /**
   * The records after `h`, old ones and the children just appended, are
   * still blank after step `h`.
   */
  lemma StepBlank(arr0: seq<int>, post0: seq<int>, nodes0: seq<Node>, h: int,
                  arr1: seq<int>, arr: seq<int>, post: seq<int>, queue0: seq<(Node, int)>, queue: seq<(Node, int)>)
    requires 0 <= h < |nodes0| && |arr0| == NodeSize * |nodes0|
    requires BlankFrom(arr0, nodes0, h)
    requires HeaderWritten(arr0, post0, arr1, post, h, nodes0[h])
    requires ChildrenWritten(arr1, queue0, arr, queue, h, nodes0[h])
    ensures BlankFrom(arr, nodes0 + ChildSeq(nodes0[h], nodes0[h].order), h + 1)
  {
    forall i | NodeSize * h + NodeSize <= i < |arr0| ensures arr[i] == arr0[i] {
      assert arr1[i] == arr0[i];
    }
    LaterStayBlank(arr0, nodes0, arr, nodes0 + ChildSeq(nodes0[h], nodes0[h].order), h);
  }

  /**
   * Writing the header and the children of record `h` (the node at the head
   * of the queue) re-establishes the invariant with `h + 1`.
   */
  lemma StepKeepsInv(root: Node, arr0: seq<int>, post0: seq<int>, nodes0: seq<Node>, h: int,
                     arr1: seq<int>, arr: seq<int>, post: seq<int>, queue0: seq<(Node, int)>, queue: seq<(Node, int)>)
    requires 0 <= h < |nodes0| && BfsInv(root, arr0, post0, QueueOf(nodes0, h), nodes0, h)
    requires HeaderWritten(arr0, post0, arr1, post, h, nodes0[h])
    requires ChildrenWritten(arr1, queue0, arr, queue, h, nodes0[h])
    requires queue0 == QueueOf(nodes0, h)[1..]
    ensures BfsInv(root, arr, post, queue, nodes0 + ChildSeq(nodes0[h], nodes0[h].order), h + 1)
  {
    var parent := nodes0[h];
    assert Valid(parent) by { assert AllValid(nodes0); }
    StepLocal(arr0, post0, nodes0, h, arr1, arr, post, queue0, queue);
    StepFinished(arr0, post0, nodes0, h, arr1, arr, post, queue0, queue);
    StepBlank(arr0, post0, nodes0, h, arr1, arr, post, queue0, queue);
    StepQueue(nodes0, h, arr1, arr, queue0, queue);
    ValidStep(nodes0, parent);
    TotalsStep(root, nodes0, parent, h, |post0|, |post|);
  }

  /**
   * Which letter slot names each record: `src[k]` is the (record, letter) whose
   * slot holds record `k`'s byte offset, for every record but the root. Only
   * finished records name others, and each non-zero slot of a finished record
   * is the naming slot of the record it points at.
   */
  ghost predicate Naming(arr: seq<int>, src: seq<(int, int)>, h: int) {
    && |arr| == NodeSize * |src| && 0 <= h <= |src|
    && (forall k | 1 <= k < |src| ::
          0 <= src[k].0 < h && src[k].0 < k && 0 <= src[k].1 < NumAlphabets
          && Slot(arr, src[k].0, src[k].1) == ByteOffset(NodeSize * k))
    && (forall p, c | 0 <= p < h && 0 <= c < NumAlphabets && Slot(arr, p, c) != 0 ::
          0 < RecordOfOffset(Slot(arr, p, c)) < |src| && src[RecordOfOffset(Slot(arr, p, c))] == (p, c))
  }

  /** The naming slots of the children of record `h`, in key order. */
  ghost function NewNames(parent: Node, h: int): (r: seq<(int, int)>)
    ensures |r| == |parent.order|
    ensures forall j | 0 <= j < |parent.order| :: r[j] == (h, CharToInt(parent.order[j]))
  {
    seq(|parent.order|, j requires 0 <= j < |parent.order| => (h, CharToInt(parent.order[j])))
  }

  /** Step `h` names each appended record by the parent's slot for its letter and leaves older names alone. */
  lemma StepNames(arr0: seq<int>, post0: seq<int>, src: seq<(int, int)>, h: int, arr1: seq<int>, arr: seq<int>,
                  post: seq<int>, queue0: seq<(Node, int)>, queue: seq<(Node, int)>, parent: Node)
    requires 0 <= h < |src| && Naming(arr0, src, h)
    requires HeaderWritten(arr0, post0, arr1, post, h, parent)
    requires ChildrenWritten(arr1, queue0, arr, queue, h, parent)
    ensures Naming(arr, src + NewNames(parent, h), h + 1)
  {
    var src' := src + NewNames(parent, h);
    var order := parent.order;
    forall i | 0 <= i < NodeSize * h ensures arr[i] == arr0[i] {
      assert arr1[i] == arr0[i];
    }
    forall k | 1 <= k < |src'|
      ensures 0 <= src'[k].0 < h + 1 && src'[k].0 < k && 0 <= src'[k].1 < NumAlphabets
      ensures Slot(arr, src'[k].0, src'[k].1) == ByteOffset(NodeSize * k)
    {
      if k < |src| {
        assert src'[k] == src[k];
        assert NodeSize * src[k].0 + src[k].1 < NodeSize * h;
      } else {
        var j := k - |src|;
        assert src'[k] == (h, CharToInt(order[j]));
        assert Slot(arr, h, CharToInt(order[j])) == ByteOffset(|arr1| + NodeSize * j);
      }
    }
    forall p, c | 0 <= p < h + 1 && 0 <= c < NumAlphabets && Slot(arr, p, c) != 0
      ensures 0 < RecordOfOffset(Slot(arr, p, c)) < |src'| && src'[RecordOfOffset(Slot(arr, p, c))] == (p, c)
    {
      if p < h {
        assert NodeSize * p + c < NodeSize * h;
        assert Slot(arr, p, c) == Slot(arr0, p, c);
        assert src'[RecordOfOffset(Slot(arr0, p, c))] == src[RecordOfOffset(Slot(arr0, p, c))];
      } else {
        assert order[..|order|] == order;
        assert IntToChar(c) in order;
        var j :| 0 <= j < |order| && order[j] == IntToChar(c);
        var m := |src| + j;
        assert Slot(arr, h, CharToInt(order[j])) == ByteOffset(|arr1| + NodeSize * j);
        assert |arr1| + NodeSize * j == NodeSize * m;
        RecordOffsetRoundTrip(m);
        assert src'[m] == (h, CharToInt(order[j]));
      }
    }
  }

  /** Once every record is finished, the naming slots show that each record but the root is named exactly once. */
  lemma NamingToNamedOnce(arr: seq<int>, src: seq<(int, int)>)
    requires Naming(arr, src, |src|)
    ensures NamedOnce(arr)
  {
    forall k | 0 < k && HasRecord(arr, k)
      ensures exists p, c | HasRecord(arr, p) && 0 <= c < NumAlphabets :: Slot(arr, p, c) == ByteOffset(NodeSize * k)
    {
      assert Slot(arr, src[k].0, src[k].1) == ByteOffset(NodeSize * k);
    }
    forall p1, c1, p2, c2 |
      HasRecord(arr, p1) && HasRecord(arr, p2) && 0 <= c1 < NumAlphabets && 0 <= c2 < NumAlphabets
      && Slot(arr, p1, c1) != 0 && Slot(arr, p1, c1) == Slot(arr, p2, c2)
      ensures p1 == p2 && c1 == c2
    {
      assert src[RecordOfOffset(Slot(arr, p1, c1))] == (p1, c1);
      assert src[RecordOfOffset(Slot(arr, p2, c2))] == (p2, c2);
    }
  }

  /** One iteration of the breadth-first loop (lines 88-113) for the node at the head of the queue. */
  method Step(root: Node, arr: seq<int>, post: seq<int>, queue: seq<(Node, int)>, ghost nodes: seq<Node>, ghost h: int)
    returns (arr': seq<int>, post': seq<int>, queue': seq<(Node, int)>,
             ghost nodes': seq<Node>, ghost h': int, ghost arr1: seq<int>)
    requires |queue| > 0 && BfsInv(root, arr, post, queue, nodes, h)
    ensures BfsInv(root, arr', post', queue', nodes', h') && h' == h + 1
    ensures h < |nodes| && |nodes'| == |nodes| + |nodes[h].order|
    ensures AllValid(nodes) && nodes' == nodes + ChildSeq(nodes[h], nodes[h].order)
    ensures HeaderWritten(arr, post, arr1, post', h, nodes[h])
    ensures ChildrenWritten(arr1, queue[1..], arr', queue', h, nodes[h])
    ensures post' == post + queue[0].0.ids
    ensures |queue'| == |queue| - 1 + |queue[0].0.order|
    ensures |arr'| == |arr| + NodeSize * |queue[0].0.order|
  {
    var parent, parentIdx := queue[0].0, queue[0].1;
    queue' := queue[1..];
    assert parent == nodes[h] && parentIdx == NodeSize * h;
    assert Valid(parent) by { assert AllValid(nodes); }
    assert ZeroRecord(arr, h) by { assert BlankFrom(arr, nodes, h); }
    var header;
    header, post' := EmitHeader(arr, post, parent, parentIdx, h);
    arr1 := header;
    forall c | 0 <= c < NumAlphabets ensures Slot(arr1, h, c) == 0 {
      assert Slot(arr, h, c) == 0;
      assert arr1[NodeSize * h + c] == arr[NodeSize * h + c];
    }
    ghost var queue0 := queue';
    arr', queue' := EmitChildren(header, queue', parent, parentIdx, h);
    StepKeepsInv(root, arr, post, nodes, h, arr1, arr', post', queue0, queue');
    nodes' := nodes + ChildSeq(parent, parent.order);
    h' := h + 1;
  }

  /** Once the queue is empty every record is finished, which gives the layout and the encoding. */
  lemma FinishInv(root: Node, arr: seq<int>, post: seq<int>, nodes: seq<Node>, h: int)
    requires BfsInv(root, arr, post, [], nodes, h)
    ensures WellFormed(arr, post)
    ensures Encodes(arr, post, 0, root)
    ensures |arr| == NodeSize * Count(root)
    ensures |post| == TotalIds(root)
  {
    assert h == |nodes| && nodes[h..] == [];
    assert Finished(arr, post, nodes, |nodes|);
    LocalToWellFormed(arr, post, nodes);
    LocalToEncodes(arr, post, nodes, 0);
  }

  /**
   * `Trie.serialize` (lines 74-113): breadth-first from the root, which takes
   * record 0; each dequeued node gets its header written and a fresh record
   * appended for each child. The result lays out one record per node, every
   * record encodes its subtree, and the posting array holds all id lists.
   */
  method Serialize(root: Node) returns (arr: seq<int>, post: seq<int>)
    requires Valid(root)
    ensures WellFormed(arr, post)
    ensures Encodes(arr, post, 0, root)
    ensures |arr| == NodeSize * Count(root)
    ensures |post| == TotalIds(root)
    ensures NamedOnce(arr)
    ensures forall k | 0 <= k < Count(root) :: Encodes(arr, post, k, LevelOrderOf(root)[k])
  {
    arr := Zeros(NodeSize);
    post := [];
    var queue: seq<(Node, int)> := [(root, 0)];
    ghost var nodes: seq<Node> := [root];
    ghost var h := 0;
    ghost var src: seq<(int, int)> := [(0, 0)];
    assert nodes[h..] == [root];
    while |queue| > 0
      invariant BfsInv(root, arr, post, queue, nodes, h)
      invariant |src| == |nodes| && Naming(arr, src, h)
      invariant LevelOrderSoFar(root, nodes, h)
      decreases Count(root) - h
    {
      ghost var arr0, post0, queue0, nodes0, h0 := arr, post, queue, nodes, h;
      ghost var arr1;
      arr, post, queue, nodes, h, arr1 := Step(root, arr, post, queue, nodes, h);
      StepNames(arr0, post0, src, h0, arr1, arr, post, queue0[1..], queue, nodes0[h0]);
      src := src + NewNames(nodes0[h0], h0);
      LevelOrderStep(root, nodes0, h0);
    }
    FinishInv(root, arr, post, nodes, h);
    NamingToNamedOnce(arr, src);
    LevelOrderDone(root, arr, post, nodes, h);
  }
}

=== FILE: trie.dfy ===
/**
 * The in-memory trie built before serialization (`TrieNode`, `Trie.insert`).
 *
 * A node keeps its children in a map keyed by letter, plus the order in which
 * those keys were first inserted: the source's children dictionary iterates in
 * insertion order, and that is the order the serializer enqueues them.
 *
 * Line numbers in the comments below refer to `enron_search.py`.
 */
module Trie {
  import opened Wrappers
  import opened Alphabet

  datatype Node = Node(children: map<char, Node>, order: seq<char>, isEnd: bool, ids: seq<int>)

  /** A freshly created `TrieNode`: no children, not the end of a word, no ids. */
  function NewNode(): Node {
    Node(map[], [], false, [])
  }

  predicate Distinct<T(==)>(s: seq<T>) {
    forall i, j | 0 <= i < j < |s| :: s[i] != s[j]
  }

  /**
   * The shape every trie built by `Insert` from letter words has: child keys are
   * letters, `order` lists each key exactly once, and ids are only present on
   * end-of-word nodes.
   */
  ghost predicate Valid(n: Node)
    decreases n
  {
    && (forall k | k in n.children :: IsLetter(k) && Valid(n.children[k]))
    && Distinct(n.order)
    && (forall k :: k in n.order <==> k in n.children)
    && (!n.isEnd ==> n.ids == [])
  }

  /** The node reached by following the letters of `w` from `n`, if every edge exists. */
  function Lookup(n: Node, w: string): Option<Node>
    decreases |w|
  {
    if |w| == 0 then Some(n)
    else if w[0] in n.children then Lookup(n.children[w[0]], w[1..])
    else None
  }

  /** `w` is a complete word of the trie rooted at `n`. */
  predicate IsEndAt(n: Node, w: string) {
    Lookup(n, w).Some? && Lookup(n, w).value.isEnd
  }

  /** The id list stored at the node of `w` (empty when there is no such node). */
  function IdsAt(n: Node, w: string): seq<int> {
    if Lookup(n, w).Some? then Lookup(n, w).value.ids else []
  }

  /** The posting list of `w` if `w` is a complete word, and `None` otherwise. */
  function Entry(n: Node, w: string): Option<seq<int>> {
    if IsEndAt(n, w) then Some(IdsAt(n, w)) else None
  }

  /**
   * `Trie.insert(word, id)`: walk down `word`, creating each missing child,
   * then mark the last node as the end of a word and append `id` to its list.
   */
  function Insert(n: Node, word: string, id: int): (r: Node)
    ensures IsEndAt(r, word)
    ensures IdsAt(r, word) == IdsAt(n, word) + [id]
    ensures Valid(n) && IsWord(word) ==> Valid(r)
    decreases |word|
  {
    if |word| == 0 then
      n.(isEnd := true, ids := n.ids + [id])
    else
      var ch := word[0];
      var child := if ch in n.children then n.children[ch] else NewNode();
      n.(children := n.children[ch := Insert(child, word[1..], id)],
         order := if ch in n.children then n.order else n.order + [ch])
  }

  /**
   * `r` grows `n`: no child is removed, no end-of-word flag is cleared, and the
   * key order of every node only gains entries at its end.
   */
  ghost predicate Extends(r: Node, n: Node)
    decreases n
  {
    && n.children.Keys <= r.children.Keys
    && (n.isEnd ==> r.isEnd)
    && IsPrefix(n.order, r.order)
    && forall k | k in n.children :: Extends(r.children[k], n.children[k])
  }

  /** Number of nodes of the subtree: one record per node in the serialized form. */
  function Count(n: Node): nat
    decreases n, |n.order| + 1
  {
    1 + CountFrom(n, n.order)
  }

  function CountFrom(n: Node, keys: seq<char>): nat
    decreases n, |keys|
  {
    if |keys| == 0 then 0
    else (if keys[0] in n.children then Count(n.children[keys[0]]) else 0) + CountFrom(n, keys[1..])
  }

  /** Total length of the id lists of the subtree: the size of its posting runs. */
  function TotalIds(n: Node): nat
    decreases n, |n.order| + 1
  {
    |n.ids| + IdsFrom(n, n.order)
  }

  function IdsFrom(n: Node, keys: seq<char>): nat
    decreases n, |keys|
  {
    if |keys| == 0 then 0
    else (if keys[0] in n.children then TotalIds(n.children[keys[0]]) else 0) + IdsFrom(n, keys[1..])
  }
}

/** Facts relating `Insert` to the trie it is applied to. */
module TrieInsert {
  import opened Wrappers
  import opened Alphabet
  import opened Trie

  /** A path that leaves the fresh node is absent; the fresh node itself carries nothing. */
  lemma NewNodeEmpty(w: string)
    ensures !IsEndAt(NewNode(), w) && IdsAt(NewNode(), w) == []
  {
  }

  /** Insert touches only the node of `word`: every other path keeps its flag and its id list. */
  lemma {:induction false} InsertKeepsOthers(n: Node, word: string, id: int, v: string)
    requires v != word
    ensures IsEndAt(Insert(n, word, id), v) == IsEndAt(n, v)
    ensures IdsAt(Insert(n, word, id), v) == IdsAt(n, v)
    decreases |word|
  {
    var r := Insert(n, word, id);
    if |word| == 0 {
      assert |v| > 0;
      assert r.children == n.children;
    } else if |v| == 0 {
    } else {
      var ch := word[0];
      var child := if ch in n.children then n.children[ch] else NewNode();
      if v[0] != ch {
        assert Lookup(r, v) == Lookup(n, v);
      } else {
        assert Lookup(r, v) == Lookup(Insert(child, word[1..], id), v[1..]);
        assert v[1..] != word[1..] by {
          assert v == [v[0]] + v[1..] && word == [word[0]] + word[1..];
        }
        InsertKeepsOthers(child, word[1..], id, v[1..]);
        if ch !in n.children {
          NewNodeEmpty(v[1..]);
          assert Lookup(n, v) == None;
        } else {
          assert Lookup(n, v) == Lookup(child, v[1..]);
        }
      }
    }
  }

  /**
   * Insert creates exactly the missing nodes on the path of `word` (lines
   * 59-62): after it, a path exists when it existed before or is a prefix of
   * `word`, and no other node appears.
   */
  lemma {:induction false} InsertPaths(n: Node, word: string, id: int, v: string)
    ensures Lookup(Insert(n, word, id), v).Some? <==> Lookup(n, v).Some? || IsPrefix(v, word)
    decreases |word|
  {
    var r := Insert(n, word, id);
    if |v| == 0 {
    } else if |word| == 0 {
      assert r.children == n.children;
      assert Lookup(r, v) == Lookup(n, v);
    } else {
      var ch := word[0];
      var child := if ch in n.children then n.children[ch] else NewNode();
      if v[0] != ch {
        assert Lookup(r, v) == Lookup(n, v);
        assert !IsPrefix(v, word) by {
          if |v| <= |word| {
            assert v[0] != word[..|v|][0];
          }
        }
      } else {
        assert Lookup(r, v) == Lookup(Insert(child, word[1..], id), v[1..]);
        InsertPaths(child, word[1..], id, v[1..]);
        assert IsPrefix(v, word) <==> IsPrefix(v[1..], word[1..]) by {
          assert v == [ch] + v[1..];
          if |v| <= |word| {
            assert word[..|v|] == [ch] + word[1..][..|v| - 1];
          }
        }
        if ch in n.children {
          assert Lookup(n, v) == Lookup(child, v[1..]);
        } else {
          assert Lookup(n, v) == None;
          assert Lookup(child, v[1..]).Some? ==> |v[1..]| == 0;
        }
      }
    }
  }

  /** Insert only grows the trie: it never removes a child or clears an end-of-word flag. */
  lemma {:induction false} InsertExtends(n: Node, word: string, id: int)
    ensures Extends(Insert(n, word, id), n)
    decreases |word|
  {
    var r := Insert(n, word, id);
    if |word| == 0 {
      ExtendsRefl(n);
      forall k | k in n.children ensures Extends(r.children[k], n.children[k]) {
        ExtendsRefl(n.children[k]);
      }
    } else {
      var ch := word[0];
      forall k | k in n.children ensures Extends(r.children[k], n.children[k]) {
        if k == ch {
          InsertExtends(n.children[k], word[1..], id);
        } else {
          ExtendsRefl(n.children[k]);
        }
      }
    }
  }

  lemma {:induction false} ExtendsRefl(n: Node)
    ensures Extends(n, n)
    decreases n
  {
    forall k | k in n.children ensures Extends(n.children[k], n.children[k]) {
      ExtendsRefl(n.children[k]);
    }
  }

  /** A grown trie keeps every path and every complete word of the original. */
  lemma {:induction false} ExtendsKeepsWords(r: Node, n: Node, v: string)
    requires Extends(r, n)
    ensures Lookup(n, v).Some? ==> Lookup(r, v).Some?
    ensures IsEndAt(n, v) ==> IsEndAt(r, v)
    decreases |v|
  {
    if |v| > 0 && v[0] in n.children {
      ExtendsKeepsWords(r.children[v[0]], n.children[v[0]], v[1..]);
    }
  }

  /** Any word present before an insert is still present afterwards. */
  lemma InsertKeepsWords(n: Node, word: string, id: int, v: string)
    requires IsEndAt(n, v)
    ensures IsEndAt(Insert(n, word, id), v)
  {
    InsertExtends(n, word, id);
    ExtendsKeepsWords(Insert(n, word, id), n, v);
  }
}

=== FILE: wrappers.dfy ===
/** An optional value, used for absent trie paths and absent prefixes. */
module Wrappers {

  datatype Option<+T> = None | Some(value: T)

}
